=== FILE: README.md ===
# prodTrack core in Dafny

A functional model of the two in-memory state containers of prodTrack, a
browser productivity dashboard, with proofs of what their operations
promise.

- **TaskManager** (`assets/js/todo-habits.js`):
  - a task list with add, toggle, delete, filter and search;
  - habits with a per-habit `date → done` progress map and a streak that
    is recomputed by walking back from today;
  - a ten-entry activity feed;
  - the Monday-first week strip and the 42-cell month grid;
  - the figures of the statistics panel;
  - validation of the task, habit and quick-goal forms.
- **BudgetTracker** (`assets/js/budget.js`):
  - expenses paid out of a balance;
  - savings goals funded from the balance;
  - period filtering;
  - the per-category chart totals;
  - the import decision and the reset;
  - validation of the expense, top-up and goal forms.

Every user action is a pure function from state to state, or to a `Result`
when it can be refused. The things the browser supplies are parameters:

- the clock: "today" is a day number counted from 1970-01-01, and instants
  are integers;
- the generated ids;
- the random palette index;
- the parsed form values: `parseFloat` / `parseInt` give `Option`, with
  `None` standing for `NaN`.

Money is an exact `real`, so the add/delete round trips hold exactly.

Modules, in dependency order:

| module | file | contents |
|---|---|---|
| `Common` | common.dfy | `Option`, `Result`, ids and instants |
| `Seqs` | seqs.dfy | filter, `find`/`findIndex`, `splice`, sums and their laws |
| `Text` | text.dfy | `trim`, `toLowerCase`, `includes` |
| `Calendar` | calendar.dfy | weekdays, the week strip, the month-grid slots |
| `ActivityLog` | activity_log.dfy | the capped feed |
| `Tasks` | tasks.dfy | the task list and its views |
| `Habits` | habits.dfy | the habits, the progress map and the streak |
| `TaskManager` | task_manager.dfy | the whole tracker state, logging, form checks, statistics, month cells |
| `BudgetTracker` | budget.dfy | the budget state and its operations |
| `BudgetStats` | budget_stats.dfy | periods and category totals |
| `BudgetForms` | budget_forms.dfy | the budget forms, and sessions of user actions |

Two facts about the budget goals are easy to overstate; the model states
them as the code has them:

- **Deleting a topped-up goal.** Deleting a goal after a top-up brings the
  balance and the savings total back to their earlier values only for a
  goal that held nothing before the top-up. What the code guarantees in
  general is that deleting a goal after a top-up ends where deleting it
  straight away ends: see `BudgetTracker.TopUpThenDelete`.
- **Savings matching the goals.** The savings total equals the sum of the
  goals' amounts only as long as every goal starts at 0, as the form
  guarantees. A goal created directly with a starting amount breaks that
  equality: see `BudgetTracker.AddSavingsGoal` and
  `BudgetTracker.AddGoalThenDelete`.

## Model

| member | source | states |
|---|---|---|
| Tasks.AddTask | assets/js/todo-habits.js:30-41 | The new task is first, not completed and without a completion time; the earlier tasks follow in their old order. |
| Tasks.ToggleTask | assets/js/todo-habits.js:55-59 | Only the first task with the id changes. Its flag flips, and it carries a completion time exactly when it becomes completed. Every other task is unchanged, and an unknown id changes nothing. |
| Tasks.ToggleTwice | assets/js/todo-habits.js:55-59 | Toggling twice restores every completion flag. It restores the whole list if the task started out active. |
| Tasks.DeleteTask | assets/js/todo-habits.js:73-77 | Removes exactly the first task with the id and nothing else. An unknown id is a no-op. The length drops by one exactly when the id is known. |
| Tasks.AddThenDelete | assets/js/todo-habits.js:73-77 | Deleting a task just added gives back the original list. |
| Tasks.FilterTasks | assets/js/todo-habits.js:90-102 | Keeps exactly the tasks the named filter selects, in their order and as often as each occurs, as a subsequence of the list. Any unrecognised name, `"all"` included, keeps the whole list. |
| Tasks.ActiveCompletedPartition | assets/js/todo-habits.js:94-97 | The sizes of the active and completed views add up to the number of tasks. |
| Tasks.TasksForDate | assets/js/todo-habits.js:658-660 | Exactly the tasks dated on the given day, in order and with their multiplicity. |
| Tasks.TodayFilterIsTasksForToday | assets/js/todo-habits.js:98-99 | The "today" filter equals the per-date view for today. |
| Tasks.SearchTasks | assets/js/todo-habits.js:105-112 | A blank query returns all tasks. Otherwise it returns, in order and with their multiplicity, exactly the tasks whose lower-cased text or category contains the lower-cased query. |
| Tasks.SearchIgnoresCase | assets/js/todo-habits.js:107-111 | Lower-casing the query does not change the result. |
| Tasks.VisibleTasks | assets/js/todo-habits.js:121-130 | A non-empty search box shows the search result in place of the filter, so a query of only spaces shows every task. An empty box shows the chosen filter. Either way the view is a subsequence of the list. |
| Tasks.SearchOverridesFilter | assets/js/todo-habits.js:126-130 | While the search box is non-empty, the chosen filter has no effect. |
| Text.Trim | assets/js/todo-habits.js:854 | `trim` returns a contiguous slice of the input with only whitespace cut before and after it, and its ends are not whitespace. The result is empty exactly when the input was blank. |
| Text.Lower | assets/js/todo-habits.js:108-111 | `toLowerCase` keeps the length and changes exactly the capital letters. No capital is left in the result, and the result is blank exactly when the input was. |
| Text.LowerIdempotent | assets/js/todo-habits.js:108-111 | Lower-casing twice is lower-casing once, and it never makes a string blank or non-blank. |
| Text.ContainsIsOccurrence | assets/js/todo-habits.js:110-111 | `includes` holds exactly when the needle occurs as a contiguous slice at some position of the text. |
| Text.TrimIdempotent | assets/js/todo-habits.js:854 | Trimming twice is trimming once. |
| ActivityLog.Push | assets/js/todo-habits.js:748-753 | The new entry is first. The feed holds at most ten entries, and the earlier entries follow in order, cut to the nine newest. |
| ActivityLog.Reverse | assets/js/todo-habits.js:748-753 | A helper, not a source operation: it states the newest-first order that `unshift` builds, for `PushAllKeepsNewest`. The entries come in the opposite order, the last becoming first. |
| ActivityLog.PushAllKeepsNewest | assets/js/todo-habits.js:737-753 | After any run of entries, the feed holds the ten most recent, newest first. |
| Habits.AddHabit | assets/js/todo-habits.js:211-228 | The new habit is first, with streak 0 and a palette colour. A fresh id gets an empty marks map, a reused id keeps its marks, and other ids' marks are untouched. |
| Habits.Streak | assets/js/todo-habits.js:266-285 | The streak is at most 365. Every day of the last `streak` days up to today is done, and the day before that run is not done unless the cap is reached. |
| Habits.StreakIsRunLength | assets/js/todo-habits.js:266-285 | The run-length description above determines the streak uniquely. |
| Habits.ComputeStreak | assets/js/todo-habits.js:272-283 | The walk-back loop counts that run, stops at 365, and agrees with `Streak`. |
| Habits.ToggleHabit | assets/js/todo-habits.js:241-256 | An absent marks map is created even for an unknown habit. For an unknown habit the habit list and every streak are unchanged. For a known one, only the mark at the date is negated, and the first habit with the id gets the streak of the new marks. Other habits' marks are untouched. |
| Habits.ToggleTodayStreak | assets/js/todo-habits.js:250-253 | Marking an undone today makes the streak one more than yesterday's run. Clearing a done today makes it 0. |
| Habits.ToggleHabitTwice | assets/js/todo-habits.js:250-253 | Toggling a date twice restores every day's done-ness and the original streak. |
| Habits.DeleteHabit | assets/js/todo-habits.js:288-294 | Removes exactly the first habit with the id, together with that id's whole marks map. An unknown id is a no-op. |
| Habits.AddThenDeleteHabit | assets/js/todo-habits.js:288-294 | Deleting a habit just added gives back the habit list and every other id's marks; for an id with no marks yet, the whole book. |
| Habits.HabitsForDate | assets/js/todo-habits.js:662-668 | A habit belongs to a date exactly when its marks have an entry for that date, done or not. The habits keep their order and multiplicity. |
| Habits.ToggledHabitShowsOnDate | assets/js/todo-habits.js:662-668 | Once a date is toggled, the habit shows on that date. |
| Habits.DeletedHabitShowsNowhere | assets/js/todo-habits.js:288-294 | After deletion, no habit with the id shows on any date. |
| Calendar.WeekDates | assets/js/todo-habits.js:640-656 | Seven consecutive days, starting on a Monday, in the week that contains today. |
| Calendar.WeekDatesUnique | assets/js/todo-habits.js:640-656 | That Monday is the only one less than a week before today. |
| Calendar.LeadingBlanks | assets/js/todo-habits.js:541 | The leading blanks number 0 to 6 and step back from the first of the month to a Monday. |
| Calendar.TrailingBlanks | assets/js/todo-habits.js:571-573 | For months of 28 to 31 days there are at least 5 trailing blanks, and leading blanks, days and trailing blanks make 42. |
| Calendar.MonthSlots | assets/js/todo-habits.js:527-576 | The 42 slots hold the days of the month in order after the leading blanks, and each day lies under its own weekday column. |
| Calendar.MonthSlotsCoverMonth | assets/js/todo-habits.js:546-547 | Each day of the month occupies exactly one slot. |
| TaskManager.Record | assets/js/todo-habits.js:737-753 | Recording an activity puts it first, keeps the feed at ten entries or fewer, and leaves tasks, habits and goals alone. |
| TaskManager.AddTask | assets/js/todo-habits.js:30-45 | Adds the task and puts the entry (activity id, "added" with the text, time) at the head of the feed, as `Push` does. |
| TaskManager.ToggleTask | assets/js/todo-habits.js:55-65 | An unknown id leaves the whole state, feed included, unchanged. Otherwise the task flips, and the feed becomes the old feed with one entry pushed: the activity id, "completed" or "reopened" according to the new flag with the task's text, and the time. |
| TaskManager.DeleteTask | assets/js/todo-habits.js:73-82 | An unknown id leaves the state unchanged. Otherwise one task fewer, and the feed is the old feed with the entry (activity id, the deleted task's text, time) pushed. |
| TaskManager.AddHabit | assets/js/todo-habits.js:211-231 | Adds the habit and pushes the entry (activity id, "added" with the name, time) onto the feed. |
| TaskManager.ToggleHabit | assets/js/todo-habits.js:241-256 | For an unknown habit, nothing is logged and the habits are unchanged. Otherwise the feed is the old feed with one entry pushed: the activity id, "marked" or "cleared" according to the new mark at the date with the habit's name, and the time. |
| TaskManager.DeleteHabit | assets/js/todo-habits.js:288-301 | An unknown id leaves the state unchanged. Otherwise the habit and its marks are gone, and the feed is the old feed with the entry (activity id, the habit's name, time) pushed. |
| TaskManager.HandleAddTask | assets/js/todo-habits.js:848-865 | Refused exactly when the text is blank. Otherwise exactly `AddTask` with the trimmed text, which is non-empty and becomes the first task. |
| TaskManager.HandleAddHabit | assets/js/todo-habits.js:872-885 | Refused exactly when the name is blank. Otherwise exactly `AddHabit` with the trimmed name, which is non-empty and becomes the first habit. |
| TaskManager.HandleAddGoal | assets/js/todo-habits.js:892-913 | Accepted exactly when the trimmed title is non-empty and the parsed target is at least 1. The goal is appended at the end with progress 0, and nothing is logged. |
| TaskManager.Percent | assets/js/todo-habits.js:710-711 | The exact rounded percentage: within half a point of `100 * part / whole`, between 0 and 100, 0 for an empty whole and 100 for a full one. |
| TaskManager.UpdateStats | assets/js/todo-habits.js:689-727 | Active tasks are the size of the active view, and active plus completed is the total. The today count is the size of the per-date view. Habits done today are counted one per position in the habit list whose today mark is set: all habits exactly when every one is, 0 exactly when none is. The success rate is the rounded percentage of done habits over all habits. Productivity is the rounded percentage of completed tasks due today plus done habits over tasks due today plus all habits. Both rates lie in 0..100: 0 with nothing to count, and a 100 success rate when every habit is done. |
| TaskManager.HabitsDoneToday | assets/js/todo-habits.js:706-708 | The count of habits marked done today equals the number of positions in the habit list whose habit has today's mark set. So it is at most the number of habits, all of them exactly when each is done, and 0 exactly when none is. |
| Seqs.FilterSize | assets/js/todo-habits.js:706-708 | `filter(...).length` is the number of positions whose element passes the test. |
| TaskManager.CompletedDueToday | assets/js/todo-habits.js:720-722 | Exactly the completed tasks dated today, with their multiplicity, no more than the tasks due today. |
| TaskManager.HasTasks | assets/js/todo-habits.js:550 | A day gets the task marker exactly when some task is due that day. |
| TaskManager.HasHabits | assets/js/todo-habits.js:551 | A day gets the habit marker exactly when some habit has a mark that day. |
| TaskManager.MonthGrid | assets/js/todo-habits.js:527-580 | 42 cells. The days of the month follow the leading blanks, and every other cell is blank. Each day sits under its weekday. It is flagged "today" exactly on today, "has tasks" exactly when some task is due, and "has habits" exactly when some habit has a mark that day. |
| BudgetTracker.AddExpense | assets/js/budget.js:32-49 | Refused exactly when the amount exceeds the balance. Otherwise the expense is first and the balance drops by the amount, staying non-negative. The total of balance, savings and spending is unchanged. |
| BudgetTracker.DeleteExpense | assets/js/budget.js:64-72 | Removes only the first expense with the id and returns its amount to the balance. An unknown id is a no-op, and the money total is unchanged. |
| BudgetTracker.AddThenDeleteExpense | assets/js/budget.js:64-72 | Deleting an expense just added restores the balance and the list exactly. |
| BudgetTracker.AddSavingsGoal | assets/js/budget.js:210-220 | The goal is first, with the parsed starting amount or 0, and the balance and savings stay put. The savings total still matches the goals exactly when the goal starts at 0. |
| BudgetTracker.AddToSavings | assets/js/budget.js:231-257 | An unknown goal, or an amount above the balance, is refused. Otherwise the amount leaves the balance and enters the goal and the savings total, which conserves `balance + savings` and keeps savings matching the goals. It reports "reached" exactly when the goal's new amount meets its target. |
| BudgetTracker.DeleteGoal | assets/js/budget.js:260-269 | Removes only the first goal with the id, moving what it holds from savings back to the balance. An unknown id is a no-op. Savings keep matching the goals. |
| BudgetTracker.TopUpThenDelete | assets/js/budget.js:260-269 | Deleting a goal after a top-up gives the same state as deleting it straight away. |
| BudgetTracker.AddGoalThenDelete | assets/js/budget.js:260-269 | Creating and then deleting a goal restores the lists. Its starting amount moves from savings to the balance, so a goal started at 0 leaves everything as it was. |
| BudgetTracker.Import | assets/js/budget.js:583-603 | An unreadable file is refused, and so is a document lacking the expenses, the goals or the balance; either refusal leaves the state. Otherwise the document's data replaces the state, with savings defaulting to 0. |
| BudgetTracker.Export | assets/js/budget.js:552-558 | The export document carries all four parts. |
| BudgetTracker.ExportImportRoundTrip | assets/js/budget.js:575-603 | Importing an exported document restores the exported state. |
| BudgetTracker.ImportNeedsAllParts | assets/js/budget.js:583-587 | A document missing a required part is refused as malformed. |
| BudgetTracker.ClearData | assets/js/budget.js:613-618 | The reset state has no expenses and no goals, a balance of 25000 and savings of 0, so savings match the goals and all the money is the initial balance. |
| BudgetStats.PeriodStart | assets/js/budget.js:86-104 | Only "today", "week", "month" and "year" name a period, and each picks its own supplied start day: the start of today, of the last week, of the month or of the year. |
| BudgetStats.ExpensesByPeriod | assets/js/budget.js:86-111 | An unknown period gives every expense. A known one gives exactly the expenses dated on or after that period's start, in order and with their multiplicity. |
| BudgetStats.PeriodsNest | assets/js/budget.js:86-111 | A later-starting period holds a subset of an earlier-starting one. |
| BudgetStats.Accumulate | assets/js/budget.js:131-135 | One expense adds its amount to its own category's total and nowhere else; an unknown category adds nothing. |
| BudgetStats.Tally | assets/js/budget.js:129-133 | After the loop, each category's total has grown by what its expenses add up to, and the grand total by exactly the known-category amounts. |
| BudgetStats.SortDesc | assets/js/budget.js:139 | The result is a permutation of its input, in non-increasing order of total. |
| BudgetStats.Bars | assets/js/budget.js:137-141 | Every bar is a known category with a positive total equal to its reference sum, and the bars are sorted. Every category with a positive sum has a bar, and no category has two. |
| BudgetStats.CategoryStats | assets/js/budget.js:113-142 | The same, over the expenses of the chosen period: one bar per category with a positive total, sorted. |
| BudgetStats.CategoryStatsSum | assets/js/budget.js:113-142 | With no negative amounts, the bars add up to the in-period amounts of known categories; unknown categories are the only ones ignored. |
| BudgetForms.HandleAddExpense | assets/js/budget.js:758-775 | A missing, zero or negative amount is refused first, then an amount above the balance. Accepted exactly when the amount is positive and within the balance, and then the result is `AddExpense` with that amount and the description: the trimmed text, or the fixed placeholder when blank. |
| BudgetForms.ExpenseDescription | assets/js/budget.js:775 | The stored description is never empty: the trimmed text, or the fixed placeholder when the field is blank. |
| BudgetForms.HandleAddSavings | assets/js/budget.js:784-800 | Accepted exactly when the amount is positive, a real goal is chosen, that goal exists and the balance covers the amount. The result is then that top-up. |
| BudgetForms.HandleAddGoal | assets/js/budget.js:807-830 | Refused exactly when the trimmed name is empty or the target is not positive. The accepted goal is first, starts at 0, and keeps savings matching the goals. |
| BudgetForms.HealthySavingsNonNegative | assets/js/budget.js:260-269 | In consistent books the savings total is never negative. |
| BudgetForms.StepKeepsHealthy | assets/js/budget.js:758-839 | Every form submission, deletion or reset keeps the books consistent, action by action: savings match the goals, the balance is not overdrawn, expenses are positive and no goal holds a negative amount. |
| BudgetForms.RunKeepsHealthy | assets/js/budget.js:758-839 | Any session of such actions keeps the books consistent. |
| BudgetForms.RunConservesFunds | assets/js/budget.js:32-269 | Without a reset, the total of balance, savings and spending never changes. |

## Left out

- Rendering, event wiring, notifications, confirmations, modals and every `render*`, `create*Element` and `get*HTML` helper. They have no behaviour beyond display.
- Persistence through `storage` (localStorage and JSON). The model's state is what the containers hold in memory.
- `generateId`, `getRandomColor` and the clock. They become parameters: ids, a palette index, "today" and instants.
- The real calendar:
  - `formatDate`'s UTC string and `new Date` parsing;
  - which day number "today" is;
  - the length of a month;
  - the millisecond-based start of the "week" period.

  The caller supplies these as day numbers, a month length of 28 to 31, and period start days.
- Reading the import file, JSON parsing and the export download. The model keeps only the accept/replace decision and the shape of the exported document.
- A `null` balance in an imported document, and `savings` values that are falsy without being 0. The model's document has a present or missing number for each part.
- `generateInsights` and its percentages, and the display totals of `updateBalance`. These are display text over floating-point division. The static "peak spending" tip is always appended last.
- `getHabitWeekProgress`, `renderWeekCalendar` and the habit frequency text. They are display views.
- Floating-point semantics of amounts and of `Math.round`. Money is an exact real, and percentages are rounded exactly, halves up.
- The display time of a feed entry: `addActivity` also stores `toLocaleTimeString` as hour and minute text. The model keeps only the instant, from which that text is derived.
- One clock reading per operation. `addTask` and `addHabit` read the clock for `createdAt`, and `addActivity` reads it again for the feed entry. The model passes one `now` to both, so the item and its feed entry share an instant; no property depends on that.
- The Russian wording of activity messages. `TaskManager.Event` keeps the task text or habit name and which of the eight messages it was.
- `addExpense` called directly with an amount that is not a number. Its only caller refuses such amounts first.
- BudgetStats.SortDesc: ties are left in input order, but that order is not stated. Only the permutation and the descending order are proved.
- Text.Lower: `toLowerCase` is modelled for ASCII, Latin-1 and basic Cyrillic letters only, not the whole Unicode case mapping.
- BudgetForms.RunConservesFunds: leaves out the reset, which sets the money total to the initial balance (see `BudgetTracker.ClearData`).
- BudgetForms.RunKeepsHealthy: covers the form actions, deletions and the reset only. `importData` is not one of the actions: `BudgetTracker.Import` accepts any document with the three parts, including a negative balance or savings that do not match the goals, so an import can leave the books inconsistent.
- BudgetForms.RunConservesFunds: likewise leaves out `importData`, which replaces the money total with whatever the document holds.

=== FILE: activity_log.dfy ===
/** The task/habit tracker's activity feed: newest entry first, never more
    than ten entries, the oldest silently dropped. */
module ActivityLog {

  const MaxEntries := 10

  /** `addActivity`'s list update: `unshift` the entry, then keep the first ten. */
  function Push<A>(log: seq<A>, a: A): (r: seq<A>)
    ensures |r| == if |log| < MaxEntries then |log| + 1 else MaxEntries
    ensures r[0] == a
    ensures r[1..] == log[..|r| - 1]
  {
    var grown := [a] + log;
    if |grown| > MaxEntries then grown[..MaxEntries] else grown
  }

  /** `xs` in reverse order: the order in which pushing them leaves them. */
  function Reverse<A>(xs: seq<A>): (r: seq<A>)
    ensures |r| == |xs|
    ensures forall i :: 0 <= i < |xs| ==> r[i] == xs[|xs| - 1 - i]
  {
    if |xs| == 0 then [] else Reverse(xs[1..]) + [xs[0]]
  }

  /** Pushes every entry of `xs`, first to last. */
  function PushAll<A>(log: seq<A>, xs: seq<A>): seq<A>
    decreases |xs|
  {
    if |xs| == 0 then log else PushAll(Push(log, xs[0]), xs[1..])
  }

  function Min(a: int, b: int): int {
    if a <= b then a else b
  }

  /** After any run of pushes the log holds the ten most recent entries,
      newest first: the pushed ones in reverse, then the earlier log
      (which the tracker itself never lets grow past ten). */
  lemma {:induction false} PushAllKeepsNewest<A>(log: seq<A>, xs: seq<A>)
    requires |log| <= MaxEntries
    ensures PushAll(log, xs) == (Reverse(xs) + log)[..Min(MaxEntries, |xs| + |log|)]
    decreases |xs|
  {
    if |xs| > 0 {
      var x, rest := xs[0], xs[1..];
      var m := Min(MaxEntries, 1 + |log|);
      var log' := Push(log, x);
      var whole := Reverse(rest) + ([x] + log);
      assert log' == ([x] + log)[..m];
      assert PushAll(log, xs) == PushAll(log', rest);
      PushAllKeepsNewest(log', rest);
      assert Reverse(xs) == Reverse(rest) + [x];
      assert Reverse(xs) + log == whole;
      ConcatPrefix(Reverse(rest), [x] + log, m);
      assert Reverse(rest) + log' == whole[..|Reverse(rest)| + m];
      PrefixOfPrefix(whole, |Reverse(rest)| + m, Min(MaxEntries, |rest| + |log'|));
      assert Min(MaxEntries, |rest| + |log'|) == Min(MaxEntries, |xs| + |log|);
    } else {
      assert Reverse(xs) + log == log;
    }
  }

  lemma ConcatPrefix<A>(a: seq<A>, b: seq<A>, m: nat)
    requires m <= |b|
    ensures a + b[..m] == (a + b)[..|a| + m]
  {
  }

  lemma PrefixOfPrefix<A>(s: seq<A>, a: nat, b: nat)
    requires b <= a <= |s|
    ensures s[..a][..b] == s[..b]
  {
  }
}

=== FILE: budget.dfy ===
/** The budget tracker's state container (`BudgetTracker`): expenses paid
    out of the balance, savings goals funded from the balance, the import
    and reset paths. Money is an exact `real`; the source's floating-point
    arithmetic is not modelled. */
module BudgetTracker {
  import opened Common
  import opened Seqs
  import opened Calendar

  /** An expense; `date` is `None` when the date field was empty. */
  datatype Expense = Expense(
    id: Id,
    amount: real,
    category: string,
    date: Option<Day>,
    description: string,
    createdAt: Instant)

  /** A savings goal: `current` has been set aside towards `target`. */
  datatype SavingsGoal = SavingsGoal(
    id: Id,
    name: string,
    target: real,
    current: real,
    deadline: Option<Day>,
    icon: string,
    createdAt: Instant)

  /** Expenses and goals newest first; `savings` is the running total set
      aside into goals. */
  datatype State = State(expenses: seq<Expense>, goals: seq<SavingsGoal>, balance: real, savings: real)

  datatype Error = InsufficientFunds | GoalNotFound | InvalidFormat | Unreadable

  /** The balance of a fresh tracker and after a reset. */
  const InitialBalance: real := 25000.0

  const Initial := State([], [], InitialBalance, 0.0)

  function ExpenseId(e: Expense): Id {
    e.id
  }

  function GoalId(g: SavingsGoal): Id {
    g.id
  }

  function Amount(e: Expense): real {
    e.amount
  }

  function Current(g: SavingsGoal): real {
    g.current
  }

  /** All the money the tracker accounts for: what is left, what is set
      aside, and what was spent. */
  function Funds(st: State): real {
    st.balance + st.savings + Sum(st.expenses, Amount)
  }

  /** The savings total agrees with what the goals hold. */
  predicate SavingsMatchGoals(st: State) {
    st.savings == Sum(st.goals, Current)
  }

  predicate KnownExpense(st: State, id: Id) {
    exists j :: 0 <= j < |st.expenses| && st.expenses[j].id == id
  }

  predicate KnownGoal(st: State, id: Id) {
    exists j :: 0 <= j < |st.goals| && st.goals[j].id == id
  }

  /** `addExpense`: refused when the amount exceeds the balance; otherwise
      the expense goes first and the balance drops by the amount. */
  function AddExpense(st: State, id: Id, amount: real, category: string, date: Option<Day>,
                      description: string, now: Instant): (r: Result<State, Error>)
    ensures r.Err? <==> amount > st.balance
    ensures r.Err? ==> r.error == InsufficientFunds
    ensures r.Ok? ==>
      && r.value.expenses == [Expense(id, amount, category, date, description, now)] + st.expenses
      && r.value.balance == st.balance - amount
      && r.value.balance >= 0.0
      && r.value.goals == st.goals && r.value.savings == st.savings
    ensures r.Ok? ==> Funds(r.value) == Funds(st)
  {
    if amount > st.balance then Err(InsufficientFunds)
    else
      var e := Expense(id, amount, category, date, description, now);
      assert Sum([e] + st.expenses, Amount) == amount + Sum(st.expenses, Amount) by {
        assert ([e] + st.expenses)[1..] == st.expenses;
      }
      Ok(st.(expenses := [e] + st.expenses, balance := st.balance - amount))
  }

  /** `deleteExpense`: the first expense with the id is removed and its
      amount goes back to the balance; an unknown id changes nothing. */
  function DeleteExpense(st: State, id: Id): (r: State)
    ensures !KnownExpense(st, id) ==> r == st
    ensures forall i :: 0 <= i < |st.expenses| && IsFirst(st.expenses, ExpenseId, id, i) ==>
      && r.expenses == st.expenses[..i] + st.expenses[i + 1..]
      && r.balance == st.balance + st.expenses[i].amount
    ensures r.goals == st.goals && r.savings == st.savings
    ensures Funds(r) == Funds(st)
  {
    match FindIndex(st.expenses, ExpenseId, id)
    case None => st
    case Some(i) =>
      SumRemoveAt(st.expenses, i, Amount);
      st.(expenses := RemoveAt(st.expenses, i), balance := st.balance + st.expenses[i].amount)
  }

  /** Adding an expense and deleting it again restores the state exactly. */
  lemma AddThenDeleteExpense(st: State, id: Id, amount: real, category: string, date: Option<Day>,
                             description: string, now: Instant)
    requires AddExpense(st, id, amount, category, date, description, now).Ok?
    ensures DeleteExpense(AddExpense(st, id, amount, category, date, description, now).value, id) == st
  {
    var after := AddExpense(st, id, amount, category, date, description, now).value;
    FirstIsFound(after.expenses, ExpenseId, id, 0);
  }

  /** `addSavingsGoal`: the goal goes first; its starting amount is the
      parsed `current`, or 0 when that is missing or not a number. Neither
      the balance nor the savings total moves. */
  function AddSavingsGoal(st: State, id: Id, name: string, target: real, current: Option<real>,
                          deadline: Option<Day>, icon: string, now: Instant): (r: State)
    ensures |r.goals| == |st.goals| + 1 && r.goals[1..] == st.goals
    ensures r.goals[0].id == id && r.goals[0].name == name && r.goals[0].target == target
    ensures r.goals[0].deadline == deadline && r.goals[0].icon == icon && r.goals[0].createdAt == now
    ensures r.goals[0].current == (if current.Some? then current.value else 0.0)
    ensures r.expenses == st.expenses && r.balance == st.balance && r.savings == st.savings
    ensures SavingsMatchGoals(st) ==> (SavingsMatchGoals(r) <==> r.goals[0].current == 0.0)
  {
    var g := SavingsGoal(id, name, target, current.GetOr(0.0), deadline, icon, now);
    assert ([g] + st.goals)[1..] == st.goals;
    st.(goals := [g] + st.goals)
  }

  /** The result of a successful top-up: the new state and whether the
      goal has now reached its target (the "goal reached" message). */
  datatype Deposit = Deposit(after: State, reached: bool)

  /** `addToSavings`: an unknown goal or an amount above the balance
      changes nothing; otherwise the amount moves from the balance into
      the first goal with the id and into the savings total. */
  function AddToSavings(st: State, goalId: Id, amount: real): (r: Result<Deposit, Error>)
    ensures r.Err? && r.error == GoalNotFound <==> !KnownGoal(st, goalId)
    ensures r.Err? && r.error == InsufficientFunds <==> KnownGoal(st, goalId) && amount > st.balance
    ensures r.Err? ==> r.error in {GoalNotFound, InsufficientFunds}
    ensures forall i :: 0 <= i < |st.goals| && IsFirst(st.goals, GoalId, goalId, i) && r.Ok? ==>
      var g := st.goals[i];
      && r.value.after.goals == st.goals[i := g.(current := g.current + amount)]
      && r.value.after.balance == st.balance - amount
      && r.value.after.savings == st.savings + amount
      && r.value.after.expenses == st.expenses
      && (r.value.reached <==> g.current + amount >= g.target)
    ensures r.Ok? ==> r.value.after.balance + r.value.after.savings == st.balance + st.savings
    ensures r.Ok? ==> Funds(r.value.after) == Funds(st)
    ensures r.Ok? ==> (SavingsMatchGoals(st) ==> SavingsMatchGoals(r.value.after))
  {
    match FindIndex(st.goals, GoalId, goalId)
    case None => Err(GoalNotFound)
    case Some(i) =>
      if amount > st.balance then Err(InsufficientFunds)
      else
        var g := st.goals[i].(current := st.goals[i].current + amount);
        SumUpdate(st.goals, i, g, Current);
        Ok(Deposit(st.(goals := st.goals[i := g], balance := st.balance - amount, savings := st.savings + amount),
                   g.current >= g.target))
  }

  /** `deleteGoal`: the first goal with the id is removed and what it holds
      moves from the savings total back to the balance; an unknown id
      changes nothing. */
  function DeleteGoal(st: State, goalId: Id): (r: State)
    ensures !KnownGoal(st, goalId) ==> r == st
    ensures forall i :: 0 <= i < |st.goals| && IsFirst(st.goals, GoalId, goalId, i) ==>
      && r.goals == st.goals[..i] + st.goals[i + 1..]
      && r.balance == st.balance + st.goals[i].current
      && r.savings == st.savings - st.goals[i].current
    ensures r.expenses == st.expenses
    ensures r.balance + r.savings == st.balance + st.savings
    ensures Funds(r) == Funds(st)
    ensures SavingsMatchGoals(st) ==> SavingsMatchGoals(r)
  {
    match FindIndex(st.goals, GoalId, goalId)
    case None => st
    case Some(i) =>
      var c := st.goals[i].current;
      SumRemoveAt(st.goals, i, Current);
      st.(goals := RemoveAt(st.goals, i), balance := st.balance + c, savings := st.savings - c)
  }

  /** Deleting a goal after a top-up ends in the same state as deleting it
      straight away: the top-up is returned to the balance along with the
      rest of the goal. */
  lemma TopUpThenDelete(st: State, goalId: Id, amount: real)
    requires AddToSavings(st, goalId, amount).Ok?
    ensures DeleteGoal(AddToSavings(st, goalId, amount).value.after, goalId) == DeleteGoal(st, goalId)
  {
    var i := FindIndex(st.goals, GoalId, goalId).value;
    var after := AddToSavings(st, goalId, amount).value.after;
    assert IsFirst(after.goals, GoalId, goalId, i);
    FirstIsFound(after.goals, GoalId, goalId, i);
    assert RemoveAt(after.goals, i) == RemoveAt(st.goals, i);
  }

  /** Creating a goal and deleting it again restores the goal list and
      expenses; the goal's starting amount ends up moved from the savings
      total to the balance, so nothing moves for a goal started at 0. */
  lemma AddGoalThenDelete(st: State, id: Id, name: string, target: real, current: Option<real>,
                          deadline: Option<Day>, icon: string, now: Instant)
    ensures var c := if current.Some? then current.value else 0.0;
      DeleteGoal(AddSavingsGoal(st, id, name, target, current, deadline, icon, now), id)
        == st.(balance := st.balance + c, savings := st.savings - c)
    ensures current.None? || current == Some(0.0) ==>
      DeleteGoal(AddSavingsGoal(st, id, name, target, current, deadline, icon, now), id) == st
  {
    var c := if current.Some? then current.value else 0.0;
    var added := AddSavingsGoal(st, id, name, target, current, deadline, icon, now);
    assert IsFirst(added.goals, GoalId, id, 0);
    var r := DeleteGoal(added, id);
    assert r.goals == added.goals[1..] == st.goals;
    assert r.balance == st.balance + c && r.savings == st.savings - c;
    assert r.expenses == st.expenses;
  }

  /** The parsed import file: each field is `None` when the key is absent. */
  datatype Doc = Doc(
    expenses: Option<seq<Expense>>,
    goals: Option<seq<SavingsGoal>>,
    balance: Option<real>,
    savings: Option<real>)

  /** `importData`'s decision, given the parse result (`None` when the file
      is not valid JSON): the data replaces the state only when the
      expense list, the goal list and the balance are all present; a
      missing or zero savings total becomes 0. On an error the tracker
      keeps its state. */
  function Import(parsed: Option<Doc>): (r: Result<State, Error>)
    ensures r.Err? && r.error == Unreadable <==> parsed.None?
    ensures r.Err? && r.error == InvalidFormat <==>
      parsed.Some? && (parsed.value.expenses.None? || parsed.value.goals.None? || parsed.value.balance.None?)
    ensures r.Ok? ==>
      && r.value.expenses == parsed.value.expenses.value
      && r.value.goals == parsed.value.goals.value
      && r.value.balance == parsed.value.balance.value
      && r.value.savings == (if parsed.value.savings.Some? then parsed.value.savings.value else 0.0)
  {
    match parsed
    case None => Err(Unreadable)
    case Some(d) =>
      if d.expenses.Some? && d.goals.Some? && d.balance.Some? then
        Ok(State(d.expenses.value, d.goals.value, d.balance.value, d.savings.GetOr(0.0)))
      else Err(InvalidFormat)
  }

  /** `exportData`'s document (the export timestamp is left out). */
  function Export(st: State): (d: Doc)
    ensures d.expenses.Some? && d.goals.Some? && d.balance.Some? && d.savings.Some?
  {
    Doc(Some(st.expenses), Some(st.goals), Some(st.balance), Some(st.savings))
  }

  /** Importing an exported document restores the exported state. */
  lemma ExportImportRoundTrip(st: State)
    ensures Import(Some(Export(st))) == Ok(st)
  {
  }

  /** A document missing any required field leaves the state alone. */
  lemma ImportNeedsAllParts(d: Doc)
    requires d.expenses.None? || d.goals.None? || d.balance.None?
    ensures Import(Some(d)) == Err(InvalidFormat)
  {
  }

  /** `clearData` (after the confirmation): no expenses, no goals, the
      initial balance and nothing set aside. */
  function ClearData(st: State): (r: State)
    ensures r.expenses == [] && r.goals == []
    ensures r.balance == InitialBalance && r.savings == 0.0
    ensures SavingsMatchGoals(r) && Funds(r) == InitialBalance
  {
    Initial
  }
}

=== FILE: budget_forms.dfy ===
/** The budget tracker's form handlers (`handleAddExpense`,
    `handleAddSavings`, `handleAddGoal`) and what any session of user
    actions through them keeps true of the books. */
module BudgetForms {
  import opened Common
  import opened Seqs
  import opened Text
  import opened Calendar
  import opened BudgetTracker

  /** Why a form was refused; a refused form leaves the state unchanged. */
  datatype FormError = InvalidAmount | NoGoalSelected | MissingFields | Rejected(reason: Error)

  /** The description stored when the field is left blank. */
  const NoDescription: string := "Без описания"

  /** The placeholder entry of the goal drop-down. */
  const NewGoalOption: string := "new-goal"

  /** `!amount || amount <= 0` on a `parseFloat` result (`None` for `NaN`). */
  predicate ValidAmount(amount: Option<real>) {
    amount.Some? && amount.value > 0.0
  }

  /** `handleAddExpense`: a missing, zero or negative amount is refused;
      the description is trimmed, with a fixed text when blank; the
      expense itself may still be refused for want of funds. */
  function HandleAddExpense(st: State, amount: Option<real>, category: string, date: Option<Day>,
                            descriptionInput: string, id: Id, now: Instant): (r: Result<State, FormError>)
    ensures r.Err? && r.error == InvalidAmount <==> !ValidAmount(amount)
    ensures r.Err? && r.error == Rejected(InsufficientFunds) <==> ValidAmount(amount) && amount.value > st.balance
    ensures r.Ok? <==> ValidAmount(amount) && amount.value <= st.balance
    ensures r.Ok? ==> r.value == AddExpense(st, id, amount.value, category, date, ExpenseDescription(descriptionInput), now).value
    ensures r.Ok? ==>
      && |r.value.expenses| == |st.expenses| + 1 && r.value.expenses[1..] == st.expenses
      && r.value.expenses[0].amount == amount.value > 0.0
      && r.value.expenses[0].description == (if IsBlank(descriptionInput) then NoDescription else Trim(descriptionInput))
      && r.value.expenses[0].description != []
      && r.value.balance == st.balance - amount.value >= 0.0
  {
    if !ValidAmount(amount) then Err(InvalidAmount)
    else
      match AddExpense(st, id, amount.value, category, date, ExpenseDescription(descriptionInput), now)
      case Err(e) => Err(Rejected(e))
      case Ok(after) => Ok(after)
  }

  /** `description.trim() || 'Без описания'`: the trimmed text, or the fixed
      text when nothing but whitespace was entered. */
  function ExpenseDescription(input: string): (d: string)
    ensures d != []
    ensures IsBlank(input) ==> d == NoDescription
    ensures !IsBlank(input) ==> d == Trim(input)
  {
    var trimmed := Trim(input);
    if trimmed == [] then NoDescription else trimmed
  }

  /** `handleAddSavings`: an invalid amount, then a missing goal choice,
      are refused before the top-up is attempted. */
  function HandleAddSavings(st: State, amount: Option<real>, goalId: string): (r: Result<Deposit, FormError>)
    ensures r.Err? && r.error == InvalidAmount <==> !ValidAmount(amount)
    ensures r.Err? && r.error == NoGoalSelected <==>
      ValidAmount(amount) && (goalId == NewGoalOption || goalId == [])
    ensures r.Ok? <==>
      && ValidAmount(amount) && goalId != NewGoalOption && goalId != []
      && KnownGoal(st, goalId) && amount.value <= st.balance
    ensures r.Ok? ==> r == Ok(AddToSavings(st, goalId, amount.value).value)
  {
    if !ValidAmount(amount) then Err(InvalidAmount)
    else if goalId == NewGoalOption || goalId == [] then Err(NoGoalSelected)
    else
      match AddToSavings(st, goalId, amount.value)
      case Err(e) => Err(Rejected(e))
      case Ok(d) => Ok(d)
  }

  /** `handleAddGoal`: refused unless the trimmed name is non-empty and the
      target is a positive number; a new goal always starts at 0. */
  function HandleAddGoal(st: State, nameInput: string, target: Option<real>, deadline: Option<Day>,
                         icon: string, id: Id, now: Instant): (r: Result<State, FormError>)
    ensures r.Err? <==> IsBlank(nameInput) || !ValidAmount(target)
    ensures r.Err? ==> r.error == MissingFields
    ensures r.Ok? ==>
      && |r.value.goals| == |st.goals| + 1 && r.value.goals[1..] == st.goals
      && r.value.goals[0].name == Trim(nameInput) && r.value.goals[0].name != []
      && r.value.goals[0].target == target.value > 0.0
      && r.value.goals[0].current == 0.0
      && r.value.balance == st.balance && r.value.savings == st.savings && r.value.expenses == st.expenses
    ensures r.Ok? ==> (SavingsMatchGoals(st) <==> SavingsMatchGoals(r.value))
  {
    var name := Trim(nameInput);
    if name == [] || !ValidAmount(target) then Err(MissingFields)
    else Ok(AddSavingsGoal(st, id, name, target.value, Some(0.0), deadline, icon, now))
  }

  /** A user action on the budget page, with the inputs already parsed. */
  datatype Action =
    | Spend(amount: Option<real>, category: string, date: Option<Day>, description: string, id: Id, now: Instant)
    | Refund(expenseId: Id)
    | CreateGoal(name: string, target: Option<real>, deadline: Option<Day>, icon: string, id: Id, now: Instant)
    | SetAside(amount: Option<real>, goalId: string)
    | DropGoal(goalId: Id)
    | Reset

  /** The state after an action; a refused form keeps the state. */
  function Step(st: State, a: Action): State {
    match a
    case Spend(amount, category, date, description, id, now) =>
      (match HandleAddExpense(st, amount, category, date, description, id, now)
       case Ok(s) => s
       case Err(_) => st)
    case Refund(expenseId) => DeleteExpense(st, expenseId)
    case CreateGoal(name, target, deadline, icon, id, now) =>
      (match HandleAddGoal(st, name, target, deadline, icon, id, now)
       case Ok(s) => s
       case Err(_) => st)
    case SetAside(amount, goalId) =>
      (match HandleAddSavings(st, amount, goalId)
       case Ok(d) => d.after
       case Err(_) => st)
    case DropGoal(goalId) => DeleteGoal(st, goalId)
    case Reset => ClearData(st)
  }

  function Run(st: State, actions: seq<Action>): State
    decreases |actions|
  {
    if |actions| == 0 then st else Run(Step(st, actions[0]), actions[1..])
  }

  /** The books are consistent: the savings total is what the goals hold,
      the balance is not overdrawn, every expense is positive and no goal
      holds a negative amount. */
  predicate Healthy(st: State) {
    && SavingsMatchGoals(st)
    && st.balance >= 0.0
    && (forall i :: 0 <= i < |st.expenses| ==> st.expenses[i].amount > 0.0)
    && (forall i :: 0 <= i < |st.goals| ==> st.goals[i].current >= 0.0)
  }

  /** A healthy state never shows a negative savings total. */
  lemma HealthySavingsNonNegative(st: State)
    requires Healthy(st)
    ensures st.savings >= 0.0
  {
    SumNonNegative(st.goals, Current);
  }

  lemma RefundKeepsHealthy(st: State, expenseId: Id)
    requires Healthy(st)
    ensures Healthy(DeleteExpense(st, expenseId))
  {
    match FindIndex(st.expenses, ExpenseId, expenseId) {
      case None =>
      case Some(i) =>
        assert DeleteExpense(st, expenseId).expenses == RemoveAt(st.expenses, i);
    }
  }

  lemma DropGoalKeepsHealthy(st: State, goalId: Id)
    requires Healthy(st)
    ensures Healthy(DeleteGoal(st, goalId))
  {
    match FindIndex(st.goals, GoalId, goalId) {
      case None =>
      case Some(i) =>
        var r := DeleteGoal(st, goalId);
        assert r.goals == RemoveAt(st.goals, i);
        assert r.balance == st.balance + st.goals[i].current;
    }
  }

  lemma SetAsideKeepsHealthy(st: State, a: Action)
    requires Healthy(st) && a.SetAside?
    ensures Healthy(Step(st, a))
  {
    var r := HandleAddSavings(st, a.amount, a.goalId);
    if r.Ok? {
      var amount := a.amount.value;
      var d := r.value;
      assert Step(st, a) == d.after;
      assert AddToSavings(st, a.goalId, amount) == Ok(d);
      var i := FindIndex(st.goals, GoalId, a.goalId).value;
      assert IsFirst(st.goals, GoalId, a.goalId, i);
      var g := st.goals[i];
      assert d.after.goals == st.goals[i := g.(current := g.current + amount)];
      assert d.after.balance == st.balance - amount >= 0.0;
      assert d.after.expenses == st.expenses;
      assert SavingsMatchGoals(d.after);
      forall j | 0 <= j < |d.after.goals| ensures d.after.goals[j].current >= 0.0 {
        if j != i {
          assert d.after.goals[j] == st.goals[j];
        }
      }
    } else {
      assert Step(st, a) == st;
    }
  }

  lemma SpendKeepsHealthy(st: State, a: Action)
    requires Healthy(st) && a.Spend?
    ensures Healthy(Step(st, a))
  {
    var r := HandleAddExpense(st, a.amount, a.category, a.date, a.description, a.id, a.now);
    if r.Ok? {
      assert Step(st, a) == r.value;
      assert r.value.expenses == [r.value.expenses[0]] + st.expenses;
    } else {
      assert Step(st, a) == st;
    }
  }

  lemma CreateGoalKeepsHealthy(st: State, a: Action)
    requires Healthy(st) && a.CreateGoal?
    ensures Healthy(Step(st, a))
  {
    var r := HandleAddGoal(st, a.name, a.target, a.deadline, a.icon, a.id, a.now);
    if r.Ok? {
      assert Step(st, a) == r.value;
      assert r.value.goals == [r.value.goals[0]] + st.goals;
    } else {
      assert Step(st, a) == st;
    }
  }

  /** Every action keeps the books healthy. */
  lemma StepKeepsHealthy(st: State, a: Action)
    requires Healthy(st)
    ensures Healthy(Step(st, a))
  {
    match a {
      case Refund(expenseId) => RefundKeepsHealthy(st, expenseId);
      case DropGoal(goalId) => DropGoalKeepsHealthy(st, goalId);
      case SetAside(_, _) => SetAsideKeepsHealthy(st, a);
      case Spend(_, _, _, _, _, _) => SpendKeepsHealthy(st, a);
      case CreateGoal(_, _, _, _, _, _) => CreateGoalKeepsHealthy(st, a);
      case Reset =>
    }
  }

  /** Any session of actions keeps the books healthy. */
  lemma {:induction false} RunKeepsHealthy(st: State, actions: seq<Action>)
    requires Healthy(st)
    ensures Healthy(Run(st, actions))
    decreases |actions|
  {
    if |actions| > 0 {
      StepKeepsHealthy(st, actions[0]);
      RunKeepsHealthy(Step(st, actions[0]), actions[1..]);
    }
  }

  /** A fresh or reset tracker is healthy. */
  lemma InitialHealthy()
    ensures Healthy(Initial)
  {
  }

  /** Without a reset, money only moves between the balance, the savings
      and the spent amounts: their total never changes. */
  lemma {:induction false} RunConservesFunds(st: State, actions: seq<Action>)
    requires forall i :: 0 <= i < |actions| ==> !actions[i].Reset?
    ensures Funds(Run(st, actions)) == Funds(st)
    decreases |actions|
  {
    if |actions| > 0 {
      RunConservesFunds(Step(st, actions[0]), actions[1..]);
    }
  }
}

=== FILE: budget_stats.dfy ===
/** The budget tracker's derived views: expenses of a period and the
    per-category totals of the chart (`getExpensesByPeriod`,
    `getCategoryStats`). */
module BudgetStats {
  import opened Common
  import opened Seqs
  import opened Calendar
  import opened BudgetTracker

  /** The first day of each period, worked out by the caller from the
      clock: today, the day a week ago, the first of the month, the first
      of the year. */
  datatype PeriodStarts = PeriodStarts(today: Day, week: Day, month: Day, year: Day)

  /** The start day of a named period; `None` for any other name. */
  function PeriodStart(period: string, starts: PeriodStarts): (r: Option<Day>)
    ensures r.Some? <==> period in {"today", "week", "month", "year"}
    ensures period == "today" ==> r == Some(starts.today)
    ensures period == "week" ==> r == Some(starts.week)
    ensures period == "month" ==> r == Some(starts.month)
    ensures period == "year" ==> r == Some(starts.year)
  {
    if period == "today" then Some(starts.today)
    else if period == "week" then Some(starts.week)
    else if period == "month" then Some(starts.month)
    else if period == "year" then Some(starts.year)
    else None
  }

  /** An expense dated on or after `start`; an expense without a date
      never falls in a period. */
  predicate OnOrAfter(e: Expense, start: Day) {
    e.date.Some? && e.date.value >= start
  }

  /** `getExpensesByPeriod`: an unknown period name gives every expense;
      a known one the expenses dated on or after its start, in list order. */
  function ExpensesByPeriod(es: seq<Expense>, period: string, starts: PeriodStarts): (r: seq<Expense>)
    ensures PeriodStart(period, starts).None? ==> r == es
    ensures IsSubsequence(r, es)
    ensures PeriodStart(period, starts).Some? ==>
      forall e :: multiset(r)[e] == (if OnOrAfter(e, PeriodStart(period, starts).value) then multiset(es)[e] else 0)
    ensures PeriodStart(period, starts).Some? ==>
      && (forall i :: 0 <= i < |r| ==> r[i] in es && OnOrAfter(r[i], PeriodStart(period, starts).value))
      && (forall i :: 0 <= i < |es| && OnOrAfter(es[i], PeriodStart(period, starts).value) ==> es[i] in r)
    ensures |r| <= |es|
  {
    match PeriodStart(period, starts)
    case None =>
      SubsequenceOfSelf(es);
      es
    case Some(start) =>
      FilterCounts(es, (e: Expense) => OnOrAfter(e, start));
      Filter(es, (e: Expense) => OnOrAfter(e, start))
  }

  /** A period that starts later holds no more expenses, each of which is
      also in the earlier-starting period. */
  lemma PeriodsNest(es: seq<Expense>, p1: string, p2: string, starts: PeriodStarts)
    requires PeriodStart(p1, starts).Some? && PeriodStart(p2, starts).Some?
    requires PeriodStart(p1, starts).value <= PeriodStart(p2, starts).value
    ensures |ExpensesByPeriod(es, p2, starts)| <= |ExpensesByPeriod(es, p1, starts)|
    ensures forall e :: e in ExpensesByPeriod(es, p2, starts) ==> e in ExpensesByPeriod(es, p1, starts)
  {
    var s1 := PeriodStart(p1, starts).value;
    var s2 := PeriodStart(p2, starts).value;
    FilterMonotone(es, (e: Expense) => OnOrAfter(e, s2), (e: Expense) => OnOrAfter(e, s1));
  }

  /** The chart's category keys, in the order the source lists them. */
  const KnownCategories: seq<string> :=
    ["food", "transport", "utilities", "entertainment", "shopping", "health", "education", "other"]

  lemma KnownCategoriesDistinct()
    ensures forall i, j :: 0 <= i < j < |KnownCategories| ==> KnownCategories[i] != KnownCategories[j]
  {
  }

  /** One bar of the chart (the display name and colour are left out). */
  datatype CategoryTotal = CategoryTotal(key: string, total: real)

  function Total(c: CategoryTotal): real {
    c.total
  }

  function Key(k: string): string {
    k
  }

  /** Reference definition: what the expenses of category `k` add up to. */
  function CategorySum(es: seq<Expense>, k: string): real {
    if |es| == 0 then 0.0 else (if es[0].category == k then es[0].amount else 0.0) + CategorySum(es[1..], k)
  }

  /** Reference definition: the amounts of expenses in a known category. */
  function KnownAmount(es: seq<Expense>): real {
    if |es| == 0 then 0.0
    else (if es[0].category in KnownCategories then es[0].amount else 0.0) + KnownAmount(es[1..])
  }

  /** The category table keyed in `KnownCategories` order. */
  predicate IsTable(t: seq<CategoryTotal>) {
    |t| == |KnownCategories| && forall j :: 0 <= j < |t| ==> t[j].key == KnownCategories[j]
  }

  /** Every category at 0. */
  function EmptyTable(): (t: seq<CategoryTotal>)
    ensures IsTable(t)
    ensures forall j :: 0 <= j < |t| ==> t[j].total == 0.0
    ensures Sum(t, Total) == 0.0
  {
    var t := seq(|KnownCategories|, j requires 0 <= j < |KnownCategories| => CategoryTotal(KnownCategories[j], 0.0));
    SumZero(t);
    t
  }

  lemma {:induction false} SumZero(t: seq<CategoryTotal>)
    requires forall j :: 0 <= j < |t| ==> t[j].total == 0.0
    ensures Sum(t, Total) == 0.0
  {
    if |t| > 0 {
      SumZero(t[1..]);
    }
  }

  /** One step of the `forEach`: the expense's amount goes to its
      category's total when the category is known, and nowhere otherwise. */
  function Accumulate(t: seq<CategoryTotal>, e: Expense): (r: seq<CategoryTotal>)
    requires IsTable(t)
    ensures IsTable(r)
    ensures forall j :: 0 <= j < |r| ==>
      r[j].total == t[j].total + (if e.category == KnownCategories[j] then e.amount else 0.0)
    ensures Sum(r, Total) == Sum(t, Total) + (if e.category in KnownCategories then e.amount else 0.0)
  {
    KnownCategoriesDistinct();
    match FindIndex(KnownCategories, Key, e.category)
    case None => t
    case Some(j) =>
      SumUpdate(t, j, t[j].(total := t[j].total + e.amount), Total);
      t[j := t[j].(total := t[j].total + e.amount)]
  }

  /** The whole `forEach` over the expenses, first to last. */
  function Tally(t: seq<CategoryTotal>, es: seq<Expense>): (r: seq<CategoryTotal>)
    requires IsTable(t)
    ensures IsTable(r)
    ensures forall j :: 0 <= j < |r| ==> r[j].total == t[j].total + CategorySum(es, KnownCategories[j])
    ensures Sum(r, Total) == Sum(t, Total) + KnownAmount(es)
    decreases |es|
  {
    if |es| == 0 then t else Tally(Accumulate(t, es[0]), es[1..])
  }

  /** A table lists each category once. */
  lemma TableDistinct(t: seq<CategoryTotal>)
    requires IsTable(t)
    ensures Distinct(t)
  {
    KnownCategoriesDistinct();
  }

  predicate IsPositive(c: CategoryTotal) {
    c.total > 0.0
  }

  predicate SortedDesc(s: seq<CategoryTotal>) {
    forall i, j :: 0 <= i < j < |s| ==> s[i].total >= s[j].total
  }

  /** Inserts `x` into a descending list ahead of every entry whose total
      is not larger, so earlier entries win ties. */
  function InsertDesc(x: CategoryTotal, s: seq<CategoryTotal>): (r: seq<CategoryTotal>)
    ensures |r| == |s| + 1
    ensures multiset(r) == multiset{x} + multiset(s)
    ensures r[0] == x || (|s| > 0 && r[0] == s[0])
    ensures SortedDesc(s) ==> SortedDesc(r)
  {
    if |s| == 0 || s[0].total <= x.total then [x] + s
    else
      assert s == [s[0]] + s[1..];
      var rest := InsertDesc(x, s[1..]);
      var r := [s[0]] + rest;
      assert SortedDesc(s) ==> SortedDesc(r) by {
        if SortedDesc(s) {
          assert SortedDesc(s[1..]);
          ConsSorted(s[0], rest);
        }
      }
      r
  }

  /** An entry no smaller than the head of a descending list can go in
      front of it. */
  lemma ConsSorted(y: CategoryTotal, s: seq<CategoryTotal>)
    requires SortedDesc(s)
    requires |s| > 0 ==> s[0].total <= y.total
    ensures SortedDesc([y] + s)
  {
    var r := [y] + s;
    forall i, j | 0 <= i < j < |r| ensures r[i].total >= r[j].total {
      if i == 0 {
        assert r[j] == s[j - 1];
      }
    }
  }

  /** `sort((a, b) => b.total - a.total)`: a permutation of the input in
      non-increasing order of total. */
  function SortDesc(s: seq<CategoryTotal>): (r: seq<CategoryTotal>)
    ensures |r| == |s|
    ensures multiset(r) == multiset(s)
    ensures SortedDesc(r)
  {
    if |s| == 0 then []
    else
      assert s == [s[0]] + s[1..];
      InsertDesc(s[0], SortDesc(s[1..]))
  }

  lemma {:induction false} InsertDescSum(x: CategoryTotal, s: seq<CategoryTotal>)
    ensures Sum(InsertDesc(x, s), Total) == x.total + Sum(s, Total)
  {
    if |s| > 0 && s[0].total > x.total {
      InsertDescSum(x, s[1..]);
      assert ([s[0]] + InsertDesc(x, s[1..]))[1..] == InsertDesc(x, s[1..]);
    }
  }

  /** Sorting keeps the grand total. */
  lemma {:induction false} SortDescSum(s: seq<CategoryTotal>)
    ensures Sum(SortDesc(s), Total) == Sum(s, Total)
  {
    if |s| > 0 {
      SortDescSum(s[1..]);
      InsertDescSum(s[0], SortDesc(s[1..]));
    }
  }

  /** Dropping entries that total 0 keeps the grand total. */
  lemma {:induction false} DropZerosSum(s: seq<CategoryTotal>)
    requires forall i :: 0 <= i < |s| ==> s[i].total >= 0.0
    ensures Sum(Filter(s, IsPositive), Total) == Sum(s, Total)
  {
    if |s| > 0 {
      var rest := Filter(s[1..], IsPositive);
      DropZerosSum(s[1..]);
      if IsPositive(s[0]) {
        assert Filter(s, IsPositive) == [s[0]] + rest;
        assert ([s[0]] + rest)[1..] == rest;
      } else {
        assert Filter(s, IsPositive) == rest;
        assert s[0].total == 0.0;
      }
    }
  }

  /** The table after the loop: category `j` holds what the expenses of
      category `j` add up to. */
  lemma TableEntries(es: seq<Expense>, j: nat)
    requires j < |KnownCategories|
    ensures Tally(EmptyTable(), es)[j] == CategoryTotal(KnownCategories[j], CategorySum(es, KnownCategories[j]))
  {
  }

  /** The categories that survive the zero filter. */
  function Kept(es: seq<Expense>): seq<CategoryTotal> {
    Filter(Tally(EmptyTable(), es), IsPositive)
  }

  /** Whatever survives the zero filter is a known category holding its
      reference total, which is positive. */
  lemma KeptEntry(es: seq<Expense>, c: CategoryTotal)
    requires c in multiset(Kept(es))
    ensures c.total > 0.0 && c.key in KnownCategories && c.total == CategorySum(es, c.key)
  {
    var table := Tally(EmptyTable(), es);
    assert c in Kept(es);
    var i :| 0 <= i < |Kept(es)| && Kept(es)[i] == c;
    var j :| 0 <= j < |table| && table[j] == c;
    TableEntries(es, j);
  }

  /** Every category with a positive reference total survives the filter. */
  lemma PositiveIsKept(es: seq<Expense>, j: nat)
    requires j < |KnownCategories| && CategorySum(es, KnownCategories[j]) > 0.0
    ensures CategoryTotal(KnownCategories[j], CategorySum(es, KnownCategories[j])) in multiset(Kept(es))
  {
    TableEntries(es, j);
    var table := Tally(EmptyTable(), es);
    assert table[j] in Kept(es);
  }

  /** The chart's bars for a list of expenses: the non-zero categories,
      largest first. */
  function Bars(es: seq<Expense>): (r: seq<CategoryTotal>)
    ensures SortedDesc(r)
    ensures |r| <= |KnownCategories|
    ensures forall i :: 0 <= i < |r| ==>
      && r[i].total > 0.0
      && r[i].key in KnownCategories
      && r[i].total == CategorySum(es, r[i].key)
    ensures forall j :: 0 <= j < |KnownCategories| && CategorySum(es, KnownCategories[j]) > 0.0 ==>
      CategoryTotal(KnownCategories[j], CategorySum(es, KnownCategories[j])) in r
    ensures forall i, j :: 0 <= i < j < |r| ==> r[i].key != r[j].key
  {
    var r := SortDesc(Kept(es));
    forall i, j | 0 <= i < j < |r| ensures r[i].key != r[j].key {
      if r[i].key == r[j].key {
        assert r[i] in multiset(r) && r[j] in multiset(r);
        KeptEntry(es, r[i]);
        KeptEntry(es, r[j]);
        RepeatCountsTwice(r, i, j);
        var table := Tally(EmptyTable(), es);
        TableDistinct(table);
        DistinctOccursOnce(table, r[i]);
        assert false;
      }
    }
    forall i | 0 <= i < |r|
      ensures r[i].total > 0.0 && r[i].key in KnownCategories && r[i].total == CategorySum(es, r[i].key)
    {
      assert r[i] in multiset(r);
      KeptEntry(es, r[i]);
    }
    forall j | 0 <= j < |KnownCategories| && CategorySum(es, KnownCategories[j]) > 0.0
      ensures CategoryTotal(KnownCategories[j], CategorySum(es, KnownCategories[j])) in r
    {
      PositiveIsKept(es, j);
      assert CategoryTotal(KnownCategories[j], CategorySum(es, KnownCategories[j])) in multiset(r);
    }
    r
  }

  /** `getCategoryStats`: the bars over the chosen period. */
  function CategoryStats(es: seq<Expense>, period: string, starts: PeriodStarts): (r: seq<CategoryTotal>)
    ensures SortedDesc(r)
    ensures forall i :: 0 <= i < |r| ==>
      && r[i].total > 0.0
      && r[i].key in KnownCategories
      && r[i].total == CategorySum(ExpensesByPeriod(es, period, starts), r[i].key)
    ensures forall j :: 0 <= j < |KnownCategories| ==>
      var total := CategorySum(ExpensesByPeriod(es, period, starts), KnownCategories[j]);
      total > 0.0 ==> CategoryTotal(KnownCategories[j], total) in r
    ensures forall i, j :: 0 <= i < j < |r| ==> r[i].key != r[j].key
  {
    Bars(ExpensesByPeriod(es, period, starts))
  }

  /** With no negative amounts the bars add up to exactly the in-period
      amounts of known categories: expenses of unknown categories are the
      only ones left out. */
  lemma CategoryStatsSum(es: seq<Expense>, period: string, starts: PeriodStarts)
    requires forall i :: 0 <= i < |es| ==> es[i].amount >= 0.0
    ensures Sum(CategoryStats(es, period, starts), Total) == KnownAmount(ExpensesByPeriod(es, period, starts))
  {
    var inPeriod := ExpensesByPeriod(es, period, starts);
    var table := Tally(EmptyTable(), inPeriod);
    forall j | 0 <= j < |table| ensures table[j].total >= 0.0 {
      TableEntries(inPeriod, j);
      CategorySumNonNegative(inPeriod, KnownCategories[j]);
    }
    DropZerosSum(table);
    SortDescSum(Filter(table, IsPositive));
  }

  lemma {:induction false} CategorySumNonNegative(es: seq<Expense>, k: string)
    requires forall i :: 0 <= i < |es| ==> es[i].amount >= 0.0
    ensures CategorySum(es, k) >= 0.0
  {
    if |es| > 0 {
      CategorySumNonNegative(es[1..], k);
    }
  }
}

=== FILE: calendar.dfy ===
/** Calendar arithmetic behind the week strip and the month grid of the
    task/habit tracker. A calendar date is a day number counted from
    1970-01-01; the JavaScript `Date` objects and their string forms are
    not modelled. */
module Calendar {
  import opened Common

  /** Days since 1970-01-01. */
  type Day = int

  /** `Date.prototype.getDay()`: 0 is Sunday, 6 is Saturday. Day 0
      (1970-01-01) was a Thursday. */
  function Weekday(d: Day): (w: int)
    ensures 0 <= w < 7
  {
    (d + 4) % 7
  }

  const Monday := 1

  /** Moving `j` days forward moves the weekday `j` steps round the week. */
  lemma WeekdayShift(d: Day, j: int)
    ensures Weekday(d + j) == (Weekday(d) + j) % 7
  {
    var q := (d + 4) / 7;
    assert d + 4 == 7 * q + Weekday(d);
    assert d + j + 4 == 7 * q + (Weekday(d) + j);
    ModShift(Weekday(d) + j, q);
  }

  lemma ModShift(x: int, q: int)
    ensures (7 * q + x) % 7 == x % 7
  {
    var a := (7 * q + x) / 7;
    var b := x / 7;
    assert 7 * q + x == 7 * a + (7 * q + x) % 7;
    assert x == 7 * b + x % 7;
    assert 7 * (q + b - a) == (7 * q + x) % 7 - x % 7;
  }

  /** How far back the Monday of the week lies, for a `getDay()` value:
      `(w === 0 ? 6 : w - 1)`. */
  function DaysSinceMonday(w: int): (k: int)
    requires 0 <= w < 7
    ensures 0 <= k <= 6
    ensures (w - k) % 7 == Monday
  {
    if w == 0 then 6 else w - 1
  }

  /** Stepping back `DaysSinceMonday` days from any day lands on a Monday. */
  lemma BackToMonday(d: Day)
    ensures Weekday(d - DaysSinceMonday(Weekday(d))) == Monday
  {
    var k := DaysSinceMonday(Weekday(d));
    WeekdayShift(d, -k);
  }

  /** `getWeekDates`: the seven consecutive days of the Monday-first week
      that contains `today`. */
  function WeekDates(today: Day): (r: seq<Day>)
    ensures |r| == 7
    ensures forall i :: 0 <= i < 7 ==> r[i] == r[0] + i
    ensures Weekday(r[0]) == Monday
    ensures r[0] <= today < r[0] + 7
  {
    BackToMonday(today);
    var start := today - DaysSinceMonday(Weekday(today));
    seq(7, i requires 0 <= i < 7 => start + i)
  }

  /** A Monday-first week is determined by any day in it: two Mondays less
      than a week apart are the same day. */
  lemma WeekDatesUnique(today: Day, monday: Day)
    requires Weekday(monday) == Monday
    requires monday <= today < monday + 7
    ensures WeekDates(today)[0] == monday
  {
    var s := WeekDates(today)[0];
    if s < monday {
      WeekdayShift(s, monday - s);
    } else if s > monday {
      WeekdayShift(monday, s - monday);
    }
  }

  /** The 6 x 7 grid of the month view. */
  const GridCells := 42

  /** The month lengths `new Date(year, month + 1, 0).getDate()` can return. */
  predicate ValidMonthLength(daysInMonth: int) {
    28 <= daysInMonth <= 31
  }

  /** Empty cells before the first of the month:
      `(firstDayIndex === 0 ? 6 : firstDayIndex - 1)`. */
  function LeadingBlanks(firstOfMonth: Day): (n: int)
    ensures 0 <= n <= 6
    ensures Weekday(firstOfMonth - n) == Monday
  {
    BackToMonday(firstOfMonth);
    DaysSinceMonday(Weekday(firstOfMonth))
  }

  /** Empty cells after the last day: `42 - filledCells`. */
  function TrailingBlanks(firstOfMonth: Day, daysInMonth: int): (n: int)
    requires ValidMonthLength(daysInMonth)
    ensures n >= 5
    ensures LeadingBlanks(firstOfMonth) + daysInMonth + n == GridCells
  {
    GridCells - (LeadingBlanks(firstOfMonth) + daysInMonth)
  }

  /** The weekday shown in column `i % 7` of the grid (Monday first). */
  function ColumnWeekday(i: nat): int {
    (i % 7 + 1) % 7
  }

  /** The slots of the month grid, `None` for an empty cell:
      leading blanks, the days of the month in order, trailing blanks. */
  function MonthSlots(firstOfMonth: Day, daysInMonth: int): (r: seq<Option<Day>>)
    requires ValidMonthLength(daysInMonth)
    ensures |r| == GridCells
    ensures forall i :: 0 <= i < |r| ==>
      r[i] == (var k := i - LeadingBlanks(firstOfMonth);
               if 0 <= k < daysInMonth then Some(firstOfMonth + k) else None)
    ensures forall i :: 0 <= i < |r| && r[i].Some? ==> Weekday(r[i].value) == ColumnWeekday(i)
  {
    var lead := LeadingBlanks(firstOfMonth);
    var r := seq(GridCells, i requires 0 <= i < GridCells =>
      var k := i - lead;
      if 0 <= k < daysInMonth then Some(firstOfMonth + k) else None);
    forall i | 0 <= i < |r| && r[i].Some?
      ensures Weekday(r[i].value) == ColumnWeekday(i)
    {
      SlotAligned(firstOfMonth, lead, i);
    }
    r
  }

  /** The day `i - lead` after the first lies under column `i`, given that
      the row starts on the Monday `lead` days before the first. */
  lemma SlotAligned(firstOfMonth: Day, lead: int, i: nat)
    requires 0 <= lead <= 6 && Weekday(firstOfMonth - lead) == Monday
    ensures Weekday(firstOfMonth + (i - lead)) == ColumnWeekday(i)
  {
    WeekdayShift(firstOfMonth - lead, i);
    ModShift(i % 7 + 1, i / 7);
    assert i + 1 == 7 * (i / 7) + (i % 7 + 1);
  }

  /** Every day of the month appears exactly once, at offset `LeadingBlanks`. */
  lemma MonthSlotsCoverMonth(firstOfMonth: Day, daysInMonth: int, k: int)
    requires ValidMonthLength(daysInMonth) && 0 <= k < daysInMonth
    ensures MonthSlots(firstOfMonth, daysInMonth)[LeadingBlanks(firstOfMonth) + k] == Some(firstOfMonth + k)
    ensures forall i :: 0 <= i < GridCells && i != LeadingBlanks(firstOfMonth) + k ==>
      MonthSlots(firstOfMonth, daysInMonth)[i] != Some(firstOfMonth + k)
  {
  }
}

=== FILE: common.dfy ===
/** Vocabulary shared by both trackers: identifiers, clock readings,
    optional values and success/failure outcomes. */
module Common {

  /** Opaque identifiers produced by the application's id generator
      (clock plus randomness); the model receives them as parameters. */
  type Id = string

  /** A clock reading in milliseconds; supplied by the caller. */
  type Instant = int

  /** A value that may be absent: a missing JSON field, a `NaN` from parsing,
      a lookup that found nothing. */
  datatype Option<T> = None | Some(value: T) {

    /** The value, or `default` when absent (the source's `x || default`). */
    function GetOr(default: T): T {
      if Some? then value else default
    }
  }

  /** Either the new state of a container or the reason an operation refused. */
  datatype Result<T, E> = Ok(value: T) | Err(error: E)
}

=== FILE: habits.dfy ===
/** Habits of the task/habit tracker and their per-date progress map:
    adding, toggling a date, deleting, the streak, and the per-date view. */
module Habits {
  import opened Common
  import opened Seqs
  import opened Calendar

  /** One habit's marks: a date is absent until first toggled, then
      `true` (done) or `false` (cleared). */
  type Marks = map<Day, bool>

  /** `habitProgress`: habit id to that habit's marks. */
  type Progress = map<Id, Marks>

  /** A habit; `streak` is recomputed on every toggle. */
  datatype Habit = Habit(
    id: Id,
    name: string,
    frequency: string,
    color: string,
    streak: nat,
    createdAt: Instant)

  /** The habit list (newest first) together with the progress map. */
  datatype Book = Book(habits: seq<Habit>, progress: Progress)

  function HabitId(h: Habit): Id {
    h.id
  }

  /** The colours `getRandomColor` chooses from. */
  const Palette: seq<string> :=
    ["#4f46e5", "#10b981", "#f59e0b", "#ef4444", "#8b5cf6", "#06b6d4", "#ec4899", "#84cc16"]

  /** The streak walk stops after a year. */
  const MaxStreak := 365

  /** `habitProgress[id] || {}`. */
  function MarksOf(p: Progress, id: Id): Marks {
    if id in p then p[id] else map[]
  }

  /** The source's truthiness test `progress[date]`: marked and `true`. */
  predicate Done(m: Marks, d: Day) {
    d in m && m[d]
  }

  /** `addHabit`: the new habit goes first with streak 0 and a palette
      colour (`pick` is the random index); a fresh id gets an empty marks
      map, an id already in the map keeps its marks. */
  function AddHabit(b: Book, id: Id, name: string, frequency: string, pick: nat, now: Instant): (r: Book)
    requires pick < |Palette|
    ensures |r.habits| == |b.habits| + 1 && r.habits[1..] == b.habits
    ensures r.habits[0].id == id && r.habits[0].name == name && r.habits[0].frequency == frequency
    ensures r.habits[0].streak == 0 && r.habits[0].color in Palette && r.habits[0].createdAt == now
    ensures id in r.progress && r.progress[id] == MarksOf(b.progress, id)
    ensures r.progress - {id} == b.progress - {id}
  {
    var p := if id in b.progress then b.progress else b.progress[id := map[]];
    Book([Habit(id, name, frequency, Palette[pick], 0, now)] + b.habits, p)
  }

  /** Number of consecutive done days walking back from `d`, looking at
      no more than `bound` days. */
  function StreakFrom(m: Marks, d: Day, bound: nat): (k: nat)
    ensures k <= bound
    ensures forall e :: d - k < e <= d ==> Done(m, e)
    ensures k < bound ==> !Done(m, d - k)
    decreases bound
  {
    if bound == 0 || !Done(m, d) then 0 else 1 + StreakFrom(m, d - 1, bound - 1)
  }

  /** The streak: consecutive done days ending today, at most a year. */
  function Streak(m: Marks, today: Day): (k: nat)
    ensures k <= MaxStreak
    ensures forall e :: today - k < e <= today ==> Done(m, e)
    ensures k < MaxStreak ==> !Done(m, today - k)
  {
    StreakFrom(m, today, MaxStreak)
  }

  /** A run of `k` done days ending today, broken on the day before (or
      reaching the cap), is exactly the streak. */
  lemma StreakIsRunLength(m: Marks, today: Day, k: nat)
    requires k <= MaxStreak
    requires forall e :: today - k < e <= today ==> Done(m, e)
    requires k < MaxStreak ==> !Done(m, today - k)
    ensures Streak(m, today) == k
  {
  }

  /** Two marks maps that agree on which days are done over the walked
      window give the same count. */
  lemma {:induction false} StreakFromAgree(m1: Marks, m2: Marks, d: Day, bound: nat)
    requires forall e :: d - bound < e <= d ==> Done(m1, e) == Done(m2, e)
    ensures StreakFrom(m1, d, bound) == StreakFrom(m2, d, bound)
    decreases bound
  {
    if bound > 0 && Done(m1, d) {
      StreakFromAgree(m1, m2, d - 1, bound - 1);
    }
  }

  /** `updateHabitStreak`'s loop: walk back from today while the day is
      done, stopping at a year. */
  method ComputeStreak(m: Marks, today: Day) returns (streak: nat)
    ensures streak <= MaxStreak
    ensures forall e :: today - streak < e <= today ==> Done(m, e)
    ensures streak < MaxStreak ==> !Done(m, today - streak)
    ensures streak == Streak(m, today)
  {
    streak := 0;
    var current := today;
    while streak < MaxStreak
      invariant streak <= MaxStreak
      invariant current == today - streak
      invariant forall e :: today - streak < e <= today ==> Done(m, e)
    {
      if current in m && m[current] {
        streak := streak + 1;
        current := current - 1;
      } else {
        break;
      }
    }
    StreakIsRunLength(m, today, streak);
  }

  /** `toggleHabit(id, date)`: an absent marks map is created first (even
      for an unknown habit); for a known habit the mark at `date` is
      negated (absent counts as not done) and the first habit with the id
      gets its streak recomputed from today. */
  function ToggleHabit(b: Book, id: Id, date: Day, today: Day): (r: Book)
    ensures id in r.progress
    ensures r.progress - {id} == b.progress - {id}
    ensures |r.habits| == |b.habits|
    ensures (forall j :: 0 <= j < |b.habits| ==> b.habits[j].id != id) ==>
      r.habits == b.habits && r.progress[id] == MarksOf(b.progress, id)
    ensures forall i :: 0 <= i < |b.habits| && IsFirst(b.habits, HabitId, id, i) ==>
      && r.progress[id] - {date} == MarksOf(b.progress, id) - {date}
      && date in r.progress[id]
      && r.progress[id][date] == !Done(MarksOf(b.progress, id), date)
      && r.habits == b.habits[i := b.habits[i].(streak := Streak(r.progress[id], today))]
  {
    var p := if id in b.progress then b.progress else b.progress[id := map[]];
    match FindIndex(b.habits, HabitId, id)
    case None => Book(b.habits, p)
    case Some(i) =>
      assert p[id] == MarksOf(b.progress, id);
      assert forall j :: 0 <= j < |b.habits| && IsFirst(b.habits, HabitId, id, j) ==> j == i;
      var m := p[id][date := !Done(p[id], date)];
      var h := b.habits[i];
      Book(b.habits[i := h.(streak := Streak(m, today))], p[id := m])
  }

  /** Marking today on a habit whose today was not done extends the run
      that ended yesterday by one; clearing a done today ends the streak. */
  lemma ToggleTodayStreak(b: Book, id: Id, today: Day, i: nat)
    requires i < |b.habits| && IsFirst(b.habits, HabitId, id, i)
    ensures !Done(MarksOf(b.progress, id), today) ==>
      ToggleHabit(b, id, today, today).habits[i].streak
        == 1 + StreakFrom(MarksOf(b.progress, id), today - 1, MaxStreak - 1)
    ensures Done(MarksOf(b.progress, id), today) ==>
      ToggleHabit(b, id, today, today).habits[i].streak == 0
  {
    var m0 := MarksOf(b.progress, id);
    var r := ToggleHabit(b, id, today, today);
    var m := r.progress[id];
    assert r.habits[i].streak == Streak(m, today);
    if !Done(m0, today) {
      forall e | today - MaxStreak < e <= today - 1
        ensures Done(m, e) == Done(m0, e)
      {
        assert e in m <==> e in m - {today};
        assert e in m0 <==> e in m0 - {today};
      }
      StreakFromAgree(m, m0, today - 1, MaxStreak - 1);
    }
  }

  /** Toggling the same date twice leaves every date's done-ness as it
      was, so the recomputed streak is the original marks' streak; the
      date itself stays marked. */
  lemma ToggleHabitTwice(b: Book, id: Id, date: Day, today: Day, i: nat)
    requires i < |b.habits| && IsFirst(b.habits, HabitId, id, i)
    ensures var r := ToggleHabit(ToggleHabit(b, id, date, today), id, date, today);
      && (forall d :: Done(r.progress[id], d) == Done(MarksOf(b.progress, id), d))
      && date in r.progress[id]
      && r.habits[i].streak == Streak(MarksOf(b.progress, id), today)
      && r.progress - {id} == b.progress - {id}
  {
    var once := ToggleHabit(b, id, date, today);
    assert IsFirst(once.habits, HabitId, id, i);
    var r := ToggleHabit(once, id, date, today);
    var m0 := MarksOf(b.progress, id);
    var m2 := r.progress[id];
    forall d ensures Done(m2, d) == Done(m0, d) {
      if d != date {
        assert d in m2 <==> d in m2 - {date};
        assert d in once.progress[id] <==> d in once.progress[id] - {date};
        assert d in m0 <==> d in m0 - {date};
      }
    }
    StreakFromAgree(m2, m0, today, MaxStreak);
  }

  /** `deleteHabit`: removes the first habit with the id and the id's
      whole marks map; an unknown id changes nothing. */
  function DeleteHabit(b: Book, id: Id): (r: Book)
    ensures (forall j :: 0 <= j < |b.habits| ==> b.habits[j].id != id) ==> r == b
    ensures forall i :: 0 <= i < |b.habits| && IsFirst(b.habits, HabitId, id, i) ==>
      r.habits == b.habits[..i] + b.habits[i + 1..] && r.progress == b.progress - {id}
  {
    match FindIndex(b.habits, HabitId, id)
    case None => b
    case Some(i) => Book(RemoveAt(b.habits, i), b.progress - {id})
  }

  /** Adding a habit and deleting it again gives back the habit list and
      every other id's marks; for an id with no marks yet, the whole book. */
  lemma AddThenDeleteHabit(b: Book, id: Id, name: string, frequency: string, pick: nat, now: Instant)
    requires pick < |Palette|
    ensures DeleteHabit(AddHabit(b, id, name, frequency, pick, now), id) == Book(b.habits, b.progress - {id})
    ensures id !in b.progress ==> DeleteHabit(AddHabit(b, id, name, frequency, pick, now), id) == b
  {
    var added := AddHabit(b, id, name, frequency, pick, now);
    FirstIsFound(added.habits, HabitId, id, 0);
    assert added.habits[..0] + added.habits[1..] == b.habits;
    if id !in b.progress {
      assert b.progress - {id} == b.progress;
    }
  }

  /** `getHabitsForDate`: a habit belongs to a date exactly when its marks
      map has an entry (done or not) for that date; the habits keep their
      order and multiplicity. */
  function HabitsForDate(b: Book, date: Day): (r: seq<Habit>)
    ensures IsSubsequence(r, b.habits)
    ensures forall h :: multiset(r)[h] == if date in MarksOf(b.progress, h.id) then multiset(b.habits)[h] else 0
    ensures forall i :: 0 <= i < |r| ==> r[i] in b.habits && date in MarksOf(b.progress, r[i].id)
    ensures forall i :: 0 <= i < |b.habits| && date in MarksOf(b.progress, b.habits[i].id) ==>
      b.habits[i] in r
  {
    FilterCounts(b.habits, (h: Habit) => date in MarksOf(b.progress, h.id));
    Filter(b.habits, (h: Habit) => date in MarksOf(b.progress, h.id))
  }

  /** Once toggled, a habit shows on that date; after deletion no habit
      with the id shows on any date. */
  lemma ToggledHabitShowsOnDate(b: Book, id: Id, date: Day, today: Day, i: nat)
    requires i < |b.habits| && IsFirst(b.habits, HabitId, id, i)
    ensures ToggleHabit(b, id, date, today).habits[i] in HabitsForDate(ToggleHabit(b, id, date, today), date)
  {
  }

  lemma DeletedHabitShowsNowhere(b: Book, id: Id, date: Day)
    requires exists j :: 0 <= j < |b.habits| && b.habits[j].id == id
    ensures forall h :: h in HabitsForDate(DeleteHabit(b, id), date) ==> h.id != id
  {
  }
}

=== FILE: seqs.dfy ===
/** Sequence helpers that mirror the JavaScript array methods the trackers
    use: `filter`, `findIndex`/`find`, `splice(i, 1)` and `reduce` sums. */
module Seqs {
  import opened Common

  /** `r` can be obtained from `s` by leaving out elements: what is kept
      appears in the same relative order. */
  ghost predicate IsSubsequence<T>(r: seq<T>, s: seq<T>)
    decreases |s|
  {
    if |r| == 0 then true
    else if |s| == 0 then false
    else (r[0] == s[0] && IsSubsequence(r[1..], s[1..])) || IsSubsequence(r, s[1..])
  }

  lemma {:induction false} SubsequenceOfSelf<T>(s: seq<T>)
    ensures IsSubsequence(s, s)
    decreases |s|
  {
    if |s| > 0 {
      SubsequenceOfSelf(s[1..]);
    }
  }

  /** `s.filter(p)`: every occurrence of an element satisfying `p` and no
      other element, in their original order. */
  function Filter<T>(s: seq<T>, p: T -> bool): (r: seq<T>)
    ensures |r| <= |s|
    ensures forall i :: 0 <= i < |r| ==> p(r[i])
    ensures forall i :: 0 <= i < |r| ==> r[i] in s
    ensures forall i :: 0 <= i < |s| && p(s[i]) ==> s[i] in r
    ensures multiset(r) <= multiset(s)
    ensures IsSubsequence(r, s)
  {
    if |s| == 0 then []
    else
      assert s == [s[0]] + s[1..];
      var rest := Filter(s[1..], p);
      if p(s[0]) then
        assert ([s[0]] + rest)[1..] == rest;
        [s[0]] + rest
      else
        rest
  }

  /** A predicate and its negation split a sequence: their filters have
      lengths adding up to the whole. */
  lemma {:induction false} FilterPartition<T>(s: seq<T>, p: T -> bool, q: T -> bool)
    requires forall x :: q(x) == !p(x)
    ensures |Filter(s, p)| + |Filter(s, q)| == |s|
  {
    if |s| > 0 {
      FilterPartition(s[1..], p, q);
    }
  }

  /** `filter` keeps every occurrence of a selected element and no
      occurrence of any other. */
  lemma {:induction false} FilterCounts<T>(s: seq<T>, p: T -> bool)
    ensures forall x :: multiset(Filter(s, p))[x] == if p(x) then multiset(s)[x] else 0
  {
    if |s| > 0 {
      FilterCounts(s[1..], p);
      assert s == [s[0]] + s[1..];
      assert multiset(s) == multiset{s[0]} + multiset(s[1..]);
      if p(s[0]) {
        assert Filter(s, p) == [s[0]] + Filter(s[1..], p);
      }
    }
  }

  /** The filter keeps the whole length exactly when every element
      satisfies the predicate. */
  lemma {:induction false} FilterKeepsAll<T>(s: seq<T>, p: T -> bool)
    ensures |Filter(s, p)| == |s| <==> forall i :: 0 <= i < |s| ==> p(s[i])
  {
    if |s| > 0 {
      var rest := Filter(s[1..], p);
      FilterKeepsAll(s[1..], p);
      if p(s[0]) {
        assert |Filter(s, p)| == 1 + |rest|;
        assert (forall i :: 0 <= i < |s| ==> p(s[i])) <==> (forall i :: 0 <= i < |s[1..]| ==> p(s[1..][i]));
      } else {
        assert |Filter(s, p)| == |rest|;
      }
    }
  }

  /** The filter is empty exactly when no element satisfies the predicate. */
  lemma FilterKeepsNone<T>(s: seq<T>, p: T -> bool)
    ensures |Filter(s, p)| == 0 <==> forall i :: 0 <= i < |s| ==> !p(s[i])
  {
    if |Filter(s, p)| > 0 {
      var r := Filter(s, p);
      assert r[0] in s;
    }
  }

  /** Filtering depends only on what the predicate says of each element. */
  lemma {:induction false} FilterExtensional<T>(s: seq<T>, p: T -> bool, q: T -> bool)
    requires forall i :: 0 <= i < |s| ==> p(s[i]) == q(s[i])
    ensures Filter(s, p) == Filter(s, q)
  {
    if |s| > 0 {
      FilterExtensional(s[1..], p, q);
    }
  }

  /** The positions of `s` whose element satisfies `p`. */
  ghost function Positions<T>(s: seq<T>, p: T -> bool): set<nat> {
    set i: nat | i < |s| && p(s[i])
  }

  /** Every position moved one place on. */
  ghost function Shift(xs: set<nat>): set<nat> {
    set i | i in xs :: i + 1
  }

  lemma {:induction false} ShiftSize(xs: set<nat>)
    ensures |Shift(xs)| == |xs|
    decreases |xs|
  {
    if xs != {} {
      var x :| x in xs;
      ShiftSize(xs - {x});
      assert Shift(xs) == Shift(xs - {x}) + {x + 1} by {
        forall y | y in Shift(xs) ensures y in Shift(xs - {x}) + {x + 1} {
          var i :| i in xs && y == i + 1;
          if i != x {
            assert i in xs - {x};
          }
        }
        forall y | y in Shift(xs - {x}) ensures y in Shift(xs) {
          var i :| i in xs - {x} && y == i + 1;
        }
      }
      assert x + 1 !in Shift(xs - {x});
    }
  }

  /** The positions of a non-empty sequence: possibly the head, then
      those of the tail moved one place on. */
  lemma PositionsCons<T>(s: seq<T>, p: T -> bool)
    requires |s| > 0
    ensures Positions(s, p) == (if p(s[0]) then {0} else {}) + Shift(Positions(s[1..], p))
    ensures 0 !in Shift(Positions(s[1..], p))
  {
    var rest := s[1..];
    forall i: nat | i in Positions(s, p) && i > 0 ensures i in Shift(Positions(rest, p)) {
      assert rest[i - 1] == s[i];
      assert i - 1 in Positions(rest, p);
    }
  }

  /** The filter keeps one element per position that satisfies the
      predicate. */
  lemma {:induction false} FilterSize<T>(s: seq<T>, p: T -> bool)
    ensures |Filter(s, p)| == |Positions(s, p)|
    decreases |s|
  {
    if |s| > 0 {
      FilterSize(s[1..], p);
      PositionsCons(s, p);
      ShiftSize(Positions(s[1..], p));
    }
  }

  /** A weaker predicate keeps at least as many elements. */
  lemma {:induction false} FilterMonotone<T>(s: seq<T>, p: T -> bool, q: T -> bool)
    requires forall i :: 0 <= i < |s| ==> p(s[i]) ==> q(s[i])
    ensures |Filter(s, p)| <= |Filter(s, q)|
  {
    if |s| > 0 {
      FilterMonotone(s[1..], p, q);
    }
  }

  /** Elements at two different positions are different. */
  ghost predicate Distinct<T>(s: seq<T>) {
    forall i, j :: 0 <= i < j < |s| ==> s[i] != s[j]
  }

  /** Each element occurs at most once in a sequence without repeats. */
  lemma {:induction false} DistinctOccursOnce<T>(s: seq<T>, x: T)
    requires Distinct(s)
    ensures multiset(s)[x] <= 1
  {
    if |s| > 0 {
      assert s == [s[0]] + s[1..];
      DistinctOccursOnce(s[1..], x);
      if s[0] == x {
        assert x !in s[1..];
      }
    }
  }

  /** A value found at two positions occurs at least twice. */
  lemma RepeatCountsTwice<T>(s: seq<T>, i: nat, j: nat)
    requires i < j < |s| && s[i] == s[j]
    ensures multiset(s)[s[i]] >= 2
  {
    assert s == s[..j] + [s[j]] + s[j + 1..];
    assert s[i] in s[..j];
  }

  /** `i` is the position `findIndex` reports for key `k`: the first match. */
  ghost predicate IsFirst<T, K>(s: seq<T>, key: T -> K, k: K, i: nat) {
    i < |s| && key(s[i]) == k && forall j :: 0 <= j < i ==> key(s[j]) != k
  }

  /** `s.findIndex(x => key(x) === k)`, with `None` for the source's `-1`. */
  function FindIndex<T, K(==)>(s: seq<T>, key: T -> K, k: K): (r: Option<nat>)
    ensures r.Some? ==> IsFirst(s, key, k, r.value)
    ensures r.None? <==> forall j :: 0 <= j < |s| ==> key(s[j]) != k
  {
    if |s| == 0 then None
    else if key(s[0]) == k then Some(0)
    else match FindIndex(s[1..], key, k)
      case None => None
      case Some(j) => Some(j + 1)
  }

  /** The first match is unique, so any first match is what `FindIndex` reports. */
  lemma FirstIsFound<T, K>(s: seq<T>, key: T -> K, k: K, i: nat)
    requires IsFirst(s, key, k, i)
    ensures FindIndex(s, key, k) == Some(i)
  {
  }

  /** `s.splice(i, 1)`: drop the element at `i`, keep the rest in order. */
  function RemoveAt<T>(s: seq<T>, i: nat): (r: seq<T>)
    requires i < |s|
    ensures |r| == |s| - 1
    ensures forall j :: 0 <= j < i ==> r[j] == s[j]
    ensures forall j :: i <= j < |r| ==> r[j] == s[j + 1]
  {
    s[..i] + s[i + 1..]
  }

  /** `s.reduce((sum, x) => sum + f(x), 0)`. */
  function Sum<T>(s: seq<T>, f: T -> real): real {
    if |s| == 0 then 0.0 else f(s[0]) + Sum(s[1..], f)
  }

  lemma {:induction false} SumAppend<T>(a: seq<T>, b: seq<T>, f: T -> real)
    ensures Sum(a + b, f) == Sum(a, f) + Sum(b, f)
  {
    if |a| > 0 {
      assert (a + b)[1..] == a[1..] + b;
      SumAppend(a[1..], b, f);
    } else {
      assert a + b == b;
    }
  }

  /** Replacing one element changes the sum by the difference. */
  lemma {:induction false} SumUpdate<T>(s: seq<T>, i: nat, x: T, f: T -> real)
    requires i < |s|
    ensures Sum(s[i := x], f) == Sum(s, f) - f(s[i]) + f(x)
  {
    if i > 0 {
      assert s[i := x][1..] == s[1..][i - 1 := x];
      SumUpdate(s[1..], i - 1, x, f);
    }
  }

  /** Removing one element takes exactly its share out of the sum. */
  lemma {:induction false} SumRemoveAt<T>(s: seq<T>, i: nat, f: T -> real)
    requires i < |s|
    ensures Sum(RemoveAt(s, i), f) == Sum(s, f) - f(s[i])
  {
    assert s == s[..i] + [s[i]] + s[i + 1..];
    SumAppend(s[..i] + [s[i]], s[i + 1..], f);
    SumAppend(s[..i], [s[i]], f);
    SumAppend(s[..i], s[i + 1..], f);
    assert Sum([s[i]], f) == f(s[i]) + Sum([s[i]][1..], f);
  }

  /** A sum of non-negative terms is non-negative. */
  lemma {:induction false} SumNonNegative<T>(s: seq<T>, f: T -> real)
    requires forall i :: 0 <= i < |s| ==> f(s[i]) >= 0.0
    ensures Sum(s, f) >= 0.0
  {
    if |s| > 0 {
      SumNonNegative(s[1..], f);
    }
  }
}

=== FILE: task_manager.dfy ===
/** The task/habit tracker's state container (`TaskManager`): every
    successful user action changes one collection and records one entry
    in the activity feed; the derived views (statistics, month grid) are
    pure functions of the state. */
module TaskManager {
  import opened Common
  import opened Seqs
  import opened Text
  import opened Calendar
  import Tasks
  import Habits
  import ActivityLog

  /** What an activity entry reports. The source stores a Russian sentence
      built from the task text or habit name; the model keeps the parts. */
  datatype Event =
    | TaskAdded(text: string)
    | TaskCompleted(text: string)
    | TaskReopened(text: string)
    | TaskDeleted(text: string)
    | HabitAdded(name: string)
    | HabitMarked(name: string)
    | HabitCleared(name: string)
    | HabitDeleted(name: string)

  datatype Activity = Activity(id: Id, event: Event, timestamp: Instant)

  /** A goal of the quick-goals panel (unrelated to savings goals). */
  datatype Goal = Goal(id: Id, title: string, kind: string, target: int, current: int, createdAt: Instant)

  datatype State = State(
    tasks: seq<Tasks.Task>,
    book: Habits.Book,
    goals: seq<Goal>,
    activities: seq<Activity>)

  /** A validation failure of an input form; the state is left unchanged. */
  datatype FormError = EmptyText | InvalidGoal

  /** The feed never holds more than ten entries. */
  predicate LogBounded(st: State) {
    |st.activities| <= ActivityLog.MaxEntries
  }

  /** `addActivity`. */
  function Record(st: State, activityId: Id, e: Event, now: Instant): (r: State)
    ensures |r.activities| == if |st.activities| < ActivityLog.MaxEntries then |st.activities| + 1 else ActivityLog.MaxEntries
    ensures r.activities[0] == Activity(activityId, e, now)
    ensures r.activities[1..] == st.activities[..|r.activities| - 1]
    ensures LogBounded(r)
    ensures r.tasks == st.tasks && r.book == st.book && r.goals == st.goals
  {
    st.(activities := ActivityLog.Push(st.activities, Activity(activityId, e, now)))
  }

  predicate KnownTask(st: State, id: Id) {
    exists j :: 0 <= j < |st.tasks| && st.tasks[j].id == id
  }

  predicate KnownHabit(st: State, id: Id) {
    exists j :: 0 <= j < |st.book.habits| && st.book.habits[j].id == id
  }

  /** `addTask`: the task list gains the new task in front and the feed
      reports it. */
  function AddTask(st: State, taskId: Id, activityId: Id, text: string, category: string,
                   priority: string, date: Option<Day>, now: Instant): (r: State)
    ensures r.tasks == Tasks.AddTask(st.tasks, taskId, text, category, priority, date, now)
    ensures r.activities == ActivityLog.Push(st.activities, Activity(activityId, TaskAdded(text), now))
    ensures LogBounded(r)
    ensures r.book == st.book && r.goals == st.goals
  {
    Record(st.(tasks := Tasks.AddTask(st.tasks, taskId, text, category, priority, date, now)),
           activityId, TaskAdded(text), now)
  }

  /** `toggleTask`: an unknown id changes nothing (no feed entry either);
      otherwise the task flips and the feed reports its new status. */
  function ToggleTask(st: State, id: Id, activityId: Id, now: Instant): (r: State)
    ensures !KnownTask(st, id) ==> r == st
    ensures KnownTask(st, id) ==> r.tasks == Tasks.ToggleTask(st.tasks, id, now)
    ensures forall i :: 0 <= i < |st.tasks| && IsFirst(st.tasks, Tasks.TaskId, id, i) ==>
      r.activities == ActivityLog.Push(st.activities, Activity(activityId,
        if r.tasks[i].completed then TaskCompleted(st.tasks[i].text) else TaskReopened(st.tasks[i].text), now))
    ensures r.book == st.book && r.goals == st.goals
    ensures LogBounded(st) ==> LogBounded(r)
  {
    match FindIndex(st.tasks, Tasks.TaskId, id)
    case None => st
    case Some(i) =>
      var ts := Tasks.ToggleTask(st.tasks, id, now);
      var e := if ts[i].completed then TaskCompleted(ts[i].text) else TaskReopened(ts[i].text);
      Record(st.(tasks := ts), activityId, e, now)
  }

  /** `deleteTask`: an unknown id changes nothing; otherwise the task is
      removed and the feed reports it. */
  function DeleteTask(st: State, id: Id, activityId: Id, now: Instant): (r: State)
    ensures !KnownTask(st, id) ==> r == st
    ensures KnownTask(st, id) ==> r.tasks == Tasks.DeleteTask(st.tasks, id) && |r.tasks| == |st.tasks| - 1
    ensures forall i :: 0 <= i < |st.tasks| && IsFirst(st.tasks, Tasks.TaskId, id, i) ==>
      r.activities == ActivityLog.Push(st.activities, Activity(activityId, TaskDeleted(st.tasks[i].text), now))
    ensures r.book == st.book && r.goals == st.goals
    ensures LogBounded(st) ==> LogBounded(r)
  {
    match FindIndex(st.tasks, Tasks.TaskId, id)
    case None => st
    case Some(i) => Record(st.(tasks := Tasks.DeleteTask(st.tasks, id)), activityId, TaskDeleted(st.tasks[i].text), now)
  }

  /** `addHabit`. */
  function AddHabit(st: State, habitId: Id, activityId: Id, name: string, frequency: string,
                    pick: nat, now: Instant): (r: State)
    requires pick < |Habits.Palette|
    ensures r.book == Habits.AddHabit(st.book, habitId, name, frequency, pick, now)
    ensures r.activities == ActivityLog.Push(st.activities, Activity(activityId, HabitAdded(name), now))
    ensures LogBounded(r)
    ensures r.tasks == st.tasks && r.goals == st.goals
  {
    Record(st.(book := Habits.AddHabit(st.book, habitId, name, frequency, pick, now)),
           activityId, HabitAdded(name), now)
  }

  /** `toggleHabit`: for an unknown habit only the empty marks map may be
      created and nothing is logged; for a known habit the mark flips and
      the feed reports whether the date is now done. */
  function ToggleHabit(st: State, habitId: Id, date: Day, today: Day, activityId: Id, now: Instant): (r: State)
    ensures r.book == Habits.ToggleHabit(st.book, habitId, date, today)
    ensures !KnownHabit(st, habitId) ==> r.activities == st.activities && r.book.habits == st.book.habits
    ensures forall i :: 0 <= i < |st.book.habits| && IsFirst(st.book.habits, Habits.HabitId, habitId, i) ==>
      r.activities == ActivityLog.Push(st.activities, Activity(activityId,
        if Habits.Done(r.book.progress[habitId], date) then HabitMarked(st.book.habits[i].name)
        else HabitCleared(st.book.habits[i].name), now))
    ensures r.tasks == st.tasks && r.goals == st.goals
    ensures LogBounded(st) ==> LogBounded(r)
  {
    var b := Habits.ToggleHabit(st.book, habitId, date, today);
    match FindIndex(st.book.habits, Habits.HabitId, habitId)
    case None => st.(book := b)
    case Some(i) =>
      var name := st.book.habits[i].name;
      var e := if Habits.Done(b.progress[habitId], date) then HabitMarked(name) else HabitCleared(name);
      assert forall j :: 0 <= j < |st.book.habits| && IsFirst(st.book.habits, Habits.HabitId, habitId, j) ==> j == i;
      Record(st.(book := b), activityId, e, now)
  }

  /** `deleteHabit`: an unknown id changes nothing; otherwise the habit and
      its marks go and the feed reports it. */
  function DeleteHabit(st: State, habitId: Id, activityId: Id, now: Instant): (r: State)
    ensures !KnownHabit(st, habitId) ==> r == st
    ensures KnownHabit(st, habitId) ==>
      r.book == Habits.DeleteHabit(st.book, habitId) && habitId !in r.book.progress
    ensures forall i :: 0 <= i < |st.book.habits| && IsFirst(st.book.habits, Habits.HabitId, habitId, i) ==>
      r.activities == ActivityLog.Push(st.activities, Activity(activityId, HabitDeleted(st.book.habits[i].name), now))
    ensures r.tasks == st.tasks && r.goals == st.goals
    ensures LogBounded(st) ==> LogBounded(r)
  {
    match FindIndex(st.book.habits, Habits.HabitId, habitId)
    case None => st
    case Some(i) =>
      Record(st.(book := Habits.DeleteHabit(st.book, habitId)), activityId,
             HabitDeleted(st.book.habits[i].name), now)
  }

  /** `handleAddTask`: the text is trimmed; a blank text is refused,
      anything else becomes a task with the trimmed text. */
  function HandleAddTask(st: State, input: string, category: string, priority: string,
                         date: Option<Day>, taskId: Id, activityId: Id, now: Instant): (r: Result<State, FormError>)
    ensures r.Err? <==> IsBlank(input)
    ensures r.Err? ==> r.error == EmptyText
    ensures r.Ok? ==> r.value == AddTask(st, taskId, activityId, Trim(input), category, priority, date, now)
    ensures r.Ok? ==> |r.value.tasks| > 0 && r.value.tasks[0].text == Trim(input) != []
  {
    var text := Trim(input);
    if text == [] then Err(EmptyText)
    else
      AddedTaskComesFirst(st, taskId, activityId, text, category, priority, date, now);
      Ok(AddTask(st, taskId, activityId, text, category, priority, date, now))
  }

  lemma AddedTaskComesFirst(st: State, taskId: Id, activityId: Id, text: string, category: string,
                            priority: string, date: Option<Day>, now: Instant)
    ensures var r := AddTask(st, taskId, activityId, text, category, priority, date, now);
      |r.tasks| > 0 && r.tasks[0].text == text
  {
  }

  /** `handleAddHabit`: same trimming and refusal for the habit name. */
  function HandleAddHabit(st: State, input: string, frequency: string, pick: nat,
                          habitId: Id, activityId: Id, now: Instant): (r: Result<State, FormError>)
    requires pick < |Habits.Palette|
    ensures r.Err? <==> IsBlank(input)
    ensures r.Err? ==> r.error == EmptyText
    ensures r.Ok? ==> r.value == AddHabit(st, habitId, activityId, Trim(input), frequency, pick, now)
    ensures r.Ok? ==> |r.value.book.habits| > 0 && r.value.book.habits[0].name == Trim(input) != []
  {
    var name := Trim(input);
    if name == [] then Err(EmptyText)
    else
      AddedHabitComesFirst(st, habitId, activityId, name, frequency, pick, now);
      Ok(AddHabit(st, habitId, activityId, name, frequency, pick, now))
  }

  lemma AddedHabitComesFirst(st: State, habitId: Id, activityId: Id, name: string, frequency: string,
                             pick: nat, now: Instant)
    requires pick < |Habits.Palette|
    ensures var r := AddHabit(st, habitId, activityId, name, frequency, pick, now);
      |r.book.habits| > 0 && r.book.habits[0].name == name
  {
  }

  /** `handleAddGoal`: refused unless the trimmed title is non-empty and
      the parsed target (`None` for `NaN`) is at least 1; an accepted goal
      is appended at the END of the list with progress 0, and no activity
      is logged. */
  function HandleAddGoal(st: State, goalId: Id, titleInput: string, kind: string,
                         target: Option<int>, now: Instant): (r: Result<State, FormError>)
    ensures r.Ok? <==> !IsBlank(titleInput) && target.Some? && target.value >= 1
    ensures r.Err? ==> r.error == InvalidGoal
    ensures r.Ok? ==>
      && r.value.goals == st.goals + [Goal(goalId, Trim(titleInput), kind, target.value, 0, now)]
      && r.value.tasks == st.tasks && r.value.book == st.book && r.value.activities == st.activities
  {
    var title := Trim(titleInput);
    if title == [] || target.None? || target.value < 1 then Err(InvalidGoal)
    else Ok(st.(goals := st.goals + [Goal(goalId, title, kind, target.value, 0, now)]))
  }

  // ----- statistics -----

  /** `Math.round(part / whole * 100)` for `0 <= part <= whole`, and 0 when
      `whole` is 0, computed exactly (rounding halves up). */
  function Percent(part: nat, whole: nat): (p: int)
    requires part <= whole
    ensures 0 <= p <= 100
    ensures whole == 0 ==> p == 0
    ensures whole > 0 ==> 2 * p * whole - whole <= 200 * part < 2 * p * whole + whole
    ensures part == whole && whole > 0 ==> p == 100
  {
    if whole == 0 then 0
    else
      var p := (200 * part + whole) / (2 * whole);
      PercentBounds(part, whole, p);
      p
  }

  lemma PercentBounds(part: nat, whole: nat, p: int)
    requires 0 < whole && part <= whole
    requires p == (200 * part + whole) / (2 * whole)
    ensures 2 * p * whole - whole <= 200 * part < 2 * p * whole + whole
    ensures 0 <= p <= 100
    ensures part == whole ==> p == 100
  {
    var w := 2 * whole;
    var n := 200 * part + whole;
    var rem := n % w;
    assert n == w * p + rem && 0 <= rem < w;
    assert 2 * p * whole == w * p;
    if p < 0 {
      MulMono(w, p, -1);
    }
    if p > 100 {
      MulMono(w, 101, p);
    }
    if part == whole && p < 100 {
      MulMono(w, p, 99);
    }
  }

  lemma MulMono(a: nat, b: int, c: int)
    requires b <= c
    ensures a * b <= a * c
  {
    assert a * c - a * b == a * (c - b);
  }

  /** The figures `updateStats` displays. */
  datatype Stats = Stats(
    totalTasks: nat,
    completedTasks: nat,
    activeTasks: int,
    todayTasks: nat,
    activeHabits: nat,
    todayHabits: nat,
    successRate: int,
    productivity: int)

  /** `updateStats`: task counts, habit counts for today, the habit
      success rate, and the productivity rate over today's tasks plus all
      habits. */
  function UpdateStats(st: State, today: Day): (s: Stats)
    ensures s.totalTasks == |st.tasks|
    ensures s.activeTasks == |Tasks.FilterTasks(st.tasks, "active", today)|
    ensures s.completedTasks + s.activeTasks == s.totalTasks
    ensures s.todayTasks == |Tasks.TasksForDate(st.tasks, today)| <= s.totalTasks
    ensures s.todayHabits <= s.activeHabits == |st.book.habits|
    ensures s.todayHabits == s.activeHabits <==> forall i :: 0 <= i < |st.book.habits| ==> DoneToday(st, today, st.book.habits[i])
    ensures s.todayHabits == 0 <==> forall i :: 0 <= i < |st.book.habits| ==> !DoneToday(st, today, st.book.habits[i])
    ensures s.todayHabits == HabitsDoneToday(st, today) == |DonePositions(st, today)|
    ensures s.successRate == Percent(HabitsDoneToday(st, today), |st.book.habits|)
    ensures s.productivity ==
      Percent(|CompletedDueToday(st, today)| + HabitsDoneToday(st, today),
              |Tasks.TasksForDate(st.tasks, today)| + |st.book.habits|)
    ensures 0 <= s.successRate <= 100 && 0 <= s.productivity <= 100
    ensures s.activeHabits == 0 ==> s.successRate == 0
    ensures s.activeHabits > 0 && s.todayHabits == s.activeHabits ==> s.successRate == 100
    ensures s.todayTasks + s.activeHabits == 0 ==> s.productivity == 0
  {
    Tasks.ActiveCompletedPartition(st.tasks, today);
    Stats(|st.tasks|,
          |Tasks.FilterTasks(st.tasks, "completed", today)|,
          |Tasks.FilterTasks(st.tasks, "active", today)|,
          |Tasks.TasksForDate(st.tasks, today)|,
          |st.book.habits|,
          HabitsDoneToday(st, today),
          Percent(HabitsDoneToday(st, today), |st.book.habits|),
          Percent(|CompletedDueToday(st, today)| + HabitsDoneToday(st, today),
                  |Tasks.TasksForDate(st.tasks, today)| + |st.book.habits|))
  }

  /** The tasks due today that are completed: each completed task dated
      today, as often as it occurs in the list, and nothing else. */
  function CompletedDueToday(st: State, today: Day): (r: seq<Tasks.Task>)
    ensures |r| <= |Tasks.TasksForDate(st.tasks, today)|
    ensures forall t :: multiset(r)[t] == if t.completed && t.date == Some(today) then multiset(st.tasks)[t] else 0
  {
    Tasks.FilterTasks(Tasks.TasksForDate(st.tasks, today), "completed", today)
  }

  /** The habit's mark for `today` is set to done. */
  predicate DoneToday(st: State, today: Day, h: Habits.Habit) {
    Habits.Done(Habits.MarksOf(st.book.progress, h.id), today)
  }

  /** The positions in the habit list of the habits done today. */
  ghost function DonePositions(st: State, today: Day): set<nat> {
    set i: nat | i < |st.book.habits| && DoneToday(st, today, st.book.habits[i])
  }

  /** How many habits are marked done today: one per habit whose mark is
      set, so all of them exactly when each one is, none exactly when none
      is. */
  function HabitsDoneToday(st: State, today: Day): (n: nat)
    ensures n == |DonePositions(st, today)|
    ensures n <= |st.book.habits|
    ensures n == |st.book.habits| <==> forall i :: 0 <= i < |st.book.habits| ==> DoneToday(st, today, st.book.habits[i])
    ensures n == 0 <==> forall i :: 0 <= i < |st.book.habits| ==> !DoneToday(st, today, st.book.habits[i])
  {
    var done := (h: Habits.Habit) => DoneToday(st, today, h);
    FilterKeepsAll(st.book.habits, done);
    FilterKeepsNone(st.book.habits, done);
    FilterSize(st.book.habits, done);
    assert Positions(st.book.habits, done) == DonePositions(st, today);
    |Filter(st.book.habits, done)|
  }

  // ----- month grid -----

  /** A cell of the month view. */
  datatype Cell = Blank | DayCell(date: Day, isToday: bool, hasTasks: bool, hasHabits: bool)

  /** `generateCalendarHTML`'s cells: leading blanks so the first of the
      month sits under its Monday-first column, one cell per day flagged
      with whether any task is due and any habit has a mark that day, and
      trailing blanks up to 42. */
  function MonthGrid(st: State, firstOfMonth: Day, daysInMonth: int, today: Day): (r: seq<Cell>)
    requires ValidMonthLength(daysInMonth)
    ensures |r| == GridCells
    ensures forall i :: LeadingBlanks(firstOfMonth) <= i < LeadingBlanks(firstOfMonth) + daysInMonth ==>
      r[i].DayCell? && r[i].date == firstOfMonth + (i - LeadingBlanks(firstOfMonth))
    ensures forall i :: 0 <= i < |r| && (i < LeadingBlanks(firstOfMonth) || i >= LeadingBlanks(firstOfMonth) + daysInMonth) ==>
      r[i] == Blank
    ensures forall i :: 0 <= i < |r| && r[i].DayCell? ==> Weekday(r[i].date) == ColumnWeekday(i)
    ensures forall i :: 0 <= i < |r| && r[i].DayCell? ==>
      && (r[i].isToday <==> r[i].date == today)
      && (r[i].hasTasks <==> exists t :: t in st.tasks && t.date == Some(r[i].date))
      && (r[i].hasHabits <==> exists h :: h in st.book.habits && r[i].date in Habits.MarksOf(st.book.progress, h.id))
  {
    var slots := MonthSlots(firstOfMonth, daysInMonth);
    seq(GridCells, i requires 0 <= i < GridCells =>
      match slots[i]
      case None => Blank
      case Some(d) =>
        DayCell(d, d == today, HasTasks(st, d), HasHabits(st, d)))
  }

  /** A day gets the task marker when the per-date view of that day is
      non-empty, that is when some task is due that day. */
  function HasTasks(st: State, d: Day): (b: bool)
    ensures b <==> exists t :: t in st.tasks && t.date == Some(d)
  {
    var due := Tasks.TasksForDate(st.tasks, d);
    assert (exists t :: t in st.tasks && t.date == Some(d)) ==> |due| > 0 by {
      if t :| t in st.tasks && t.date == Some(d) {
        var i :| 0 <= i < |st.tasks| && st.tasks[i] == t;
        assert t in due;
      }
    }
    assert |due| > 0 ==> due[0] in st.tasks && due[0].date == Some(d);
    |due| > 0
  }

  /** A day gets the habit marker when some habit has a mark (done or not)
      for that day. */
  function HasHabits(st: State, d: Day): (b: bool)
    ensures b <==> exists h :: h in st.book.habits && d in Habits.MarksOf(st.book.progress, h.id)
  {
    var shown := Habits.HabitsForDate(st.book, d);
    assert (exists h :: h in st.book.habits && d in Habits.MarksOf(st.book.progress, h.id)) ==> |shown| > 0 by {
      if h :| h in st.book.habits && d in Habits.MarksOf(st.book.progress, h.id) {
        var i :| 0 <= i < |st.book.habits| && st.book.habits[i] == h;
        assert h in shown;
      }
    }
    assert |shown| > 0 ==> shown[0] in st.book.habits && d in Habits.MarksOf(st.book.progress, shown[0].id);
    |shown| > 0
  }
}

=== FILE: tasks.dfy ===
/** The task list of the task/habit tracker: adding, toggling, deleting,
    and the filter, search and per-date views over it. */
module Tasks {
  import opened Common
  import opened Seqs
  import opened Text
  import opened Calendar

  /** A task. `date` is `None` when the date field was left empty. */
  datatype Task = Task(
    id: Id,
    text: string,
    category: string,
    priority: string,
    date: Option<Day>,
    completed: bool,
    createdAt: Instant,
    completedAt: Option<Instant>)

  function TaskId(t: Task): Id {
    t.id
  }

  /** A completed task carries its completion time and an active one none. */
  predicate Stamped(t: Task) {
    t.completed == t.completedAt.Some?
  }

  predicate AllStamped(ts: seq<Task>) {
    forall i :: 0 <= i < |ts| ==> Stamped(ts[i])
  }

  /** `addTask`: the new task goes first, not completed; the earlier tasks
      follow in their old order. */
  function AddTask(ts: seq<Task>, id: Id, text: string, category: string, priority: string,
                   date: Option<Day>, now: Instant): (r: seq<Task>)
    ensures |r| == |ts| + 1
    ensures r[0].id == id && r[0].text == text && r[0].category == category
    ensures r[0].priority == priority && r[0].date == date && r[0].createdAt == now
    ensures !r[0].completed && Stamped(r[0])
    ensures r[1..] == ts
    ensures AllStamped(ts) ==> AllStamped(r)
  {
    [Task(id, text, category, priority, date, false, now, None)] + ts
  }

  /** Flips completion; a task becoming completed is stamped with `now`, a
      task becoming active loses its stamp. */
  function Flip(t: Task, now: Instant): (r: Task)
    ensures r.completed == !t.completed
    ensures Stamped(r)
    ensures r.completed ==> r.completedAt == Some(now)
    ensures r.(completed := t.completed, completedAt := t.completedAt) == t
  {
    t.(completed := !t.completed, completedAt := if !t.completed then Some(now) else None)
  }

  /** `toggleTask`: flips the first task with the id; every other task is
      left as it was, and an unknown id changes nothing. */
  function ToggleTask(ts: seq<Task>, id: Id, now: Instant): (r: seq<Task>)
    ensures |r| == |ts|
    ensures forall j :: 0 <= j < |ts| && !IsFirst(ts, TaskId, id, j) ==> r[j] == ts[j]
    ensures forall j :: 0 <= j < |ts| && IsFirst(ts, TaskId, id, j) ==> r[j] == Flip(ts[j], now)
    ensures (forall j :: 0 <= j < |ts| ==> ts[j].id != id) ==> r == ts
    ensures AllStamped(ts) ==> AllStamped(r)
  {
    match FindIndex(ts, TaskId, id)
    case None => ts
    case Some(i) => ts[i := Flip(ts[i], now)]
  }

  /** Toggling the same task twice restores every completion flag, and
      restores the whole list if the task started out active. */
  lemma ToggleTwice(ts: seq<Task>, id: Id, now1: Instant, now2: Instant)
    requires AllStamped(ts)
    ensures var r := ToggleTask(ToggleTask(ts, id, now1), id, now2);
      |r| == |ts| && forall j :: 0 <= j < |ts| ==> r[j].completed == ts[j].completed
    ensures (forall j :: 0 <= j < |ts| && ts[j].id == id ==> !ts[j].completed) ==>
      ToggleTask(ToggleTask(ts, id, now1), id, now2) == ts
  {
    var once := ToggleTask(ts, id, now1);
    match FindIndex(ts, TaskId, id)
    case None =>
    case Some(i) =>
      assert IsFirst(once, TaskId, id, i);
      FirstIsFound(once, TaskId, id, i);
  }

  /** `deleteTask`: removes the first task with the id, nothing else; an
      unknown id changes nothing. */
  function DeleteTask(ts: seq<Task>, id: Id): (r: seq<Task>)
    ensures (forall j :: 0 <= j < |ts| ==> ts[j].id != id) ==> r == ts
    ensures forall i :: 0 <= i < |ts| && IsFirst(ts, TaskId, id, i) ==> r == ts[..i] + ts[i + 1..]
    ensures |r| == if exists j :: 0 <= j < |ts| && ts[j].id == id then |ts| - 1 else |ts|
  {
    match FindIndex(ts, TaskId, id)
    case None => ts
    case Some(i) => RemoveAt(ts, i)
  }

  /** Adding a task and deleting it again gives back the original list. */
  lemma AddThenDelete(ts: seq<Task>, id: Id, text: string, category: string, priority: string,
                      date: Option<Day>, now: Instant)
    ensures DeleteTask(AddTask(ts, id, text, category, priority, date, now), id) == ts
  {
    var added := AddTask(ts, id, text, category, priority, date, now);
    FirstIsFound(added, TaskId, id, 0);
  }

  predicate IsActive(t: Task) {
    !t.completed
  }

  predicate IsCompleted(t: Task) {
    t.completed
  }

  /** What `filterTasks(kind)` keeps: unrecognised kinds (including
      `"all"`) keep everything. */
  predicate Selects(kind: string, today: Day, t: Task) {
    if kind == "active" then !t.completed
    else if kind == "completed" then t.completed
    else if kind == "today" then t.date == Some(today)
    else true
  }

  /** `filterTasks`: every task `Selects` keeps, as often as it occurs,
      and no other, in list order. */
  function FilterTasks(ts: seq<Task>, kind: string, today: Day): (r: seq<Task>)
    ensures |r| <= |ts|
    ensures IsSubsequence(r, ts)
    ensures forall t :: multiset(r)[t] == if Selects(kind, today, t) then multiset(ts)[t] else 0
    ensures forall i :: 0 <= i < |r| ==> r[i] in ts && Selects(kind, today, r[i])
    ensures forall i :: 0 <= i < |ts| && Selects(kind, today, ts[i]) ==> ts[i] in r
    ensures kind != "active" && kind != "completed" && kind != "today" ==> r == ts
  {
    if kind == "active" then
      FilterCounts(ts, IsActive);
      Filter(ts, IsActive)
    else if kind == "completed" then
      FilterCounts(ts, IsCompleted);
      Filter(ts, IsCompleted)
    else if kind == "today" then
      FilterCounts(ts, (t: Task) => t.date == Some(today));
      Filter(ts, (t: Task) => t.date == Some(today))
    else
      SubsequenceOfSelf(ts);
      ts
  }

  /** The active and the completed views partition the list. */
  lemma ActiveCompletedPartition(ts: seq<Task>, today: Day)
    ensures |FilterTasks(ts, "active", today)| + |FilterTasks(ts, "completed", today)| == |ts|
  {
    FilterPartition(ts, IsActive, IsCompleted);
  }

  /** `getTasksForDate`: every task due on `date`, as often as it occurs,
      in list order. */
  function TasksForDate(ts: seq<Task>, date: Day): (r: seq<Task>)
    ensures IsSubsequence(r, ts)
    ensures forall t :: multiset(r)[t] == if t.date == Some(date) then multiset(ts)[t] else 0
    ensures forall i :: 0 <= i < |r| ==> r[i] in ts && r[i].date == Some(date)
    ensures forall i :: 0 <= i < |ts| && ts[i].date == Some(date) ==> ts[i] in r
  {
    FilterCounts(ts, (t: Task) => t.date == Some(date));
    Filter(ts, (t: Task) => t.date == Some(date))
  }

  /** The "today" filter is the per-date view for today. */
  lemma TodayFilterIsTasksForToday(ts: seq<Task>, today: Day)
    ensures FilterTasks(ts, "today", today) == TasksForDate(ts, today)
  {
    FilterExtensional(ts, (t: Task) => t.date == Some(today), (t: Task) => t.date == Some(today));
  }

  /** A search hit: the lower-cased query occurs in the lower-cased text or
      category. The query is lower-cased but not trimmed. */
  predicate Matches(t: Task, query: string) {
    Contains(Lower(t.text), Lower(query)) || Contains(Lower(t.category), Lower(query))
  }

  /** `searchTasks`: a blank query returns every task; otherwise the tasks
      that match, in list order. */
  function SearchTasks(ts: seq<Task>, query: string): (r: seq<Task>)
    ensures IsBlank(query) ==> r == ts
    ensures IsSubsequence(r, ts)
    ensures !IsBlank(query) ==>
      forall t :: multiset(r)[t] == if Matches(t, query) then multiset(ts)[t] else 0
    ensures forall i :: 0 <= i < |r| ==> r[i] in ts && (IsBlank(query) || Matches(r[i], query))
    ensures forall i :: 0 <= i < |ts| && Matches(ts[i], query) ==> ts[i] in r
  {
    if IsBlank(query) then
      SubsequenceOfSelf(ts);
      ts
    else
      FilterCounts(ts, (t: Task) => Matches(t, query));
      Filter(ts, (t: Task) => Matches(t, query))
  }

  /** Searching is insensitive to the case of the query. */
  lemma SearchIgnoresCase(ts: seq<Task>, query: string)
    ensures SearchTasks(ts, Lower(query)) == SearchTasks(ts, query)
  {
    LowerIdempotent(query);
    FilterExtensional(ts, (t: Task) => Matches(t, Lower(query)), (t: Task) => Matches(t, query));
  }

  /** The list `renderTasks` shows: a non-empty search box replaces the
      filter rather than refining it, so a query of spaces alone shows
      every task whatever the filter. */
  function VisibleTasks(ts: seq<Task>, kind: string, query: string, today: Day): (r: seq<Task>)
    ensures query != "" ==> r == SearchTasks(ts, query)
    ensures query == "" ==> r == FilterTasks(ts, kind, today)
    ensures IsSubsequence(r, ts)
    ensures forall i :: 0 <= i < |r| ==> r[i] in ts
    ensures query != "" && IsBlank(query) ==> r == ts
    ensures query == "" && kind == "all" ==> r == ts
  {
    if query != "" then SearchTasks(ts, query) else FilterTasks(ts, kind, today)
  }

  /** While the search box is non-empty the chosen filter has no effect. */
  lemma SearchOverridesFilter(ts: seq<Task>, kind1: string, kind2: string, query: string, today: Day)
    requires query != ""
    ensures VisibleTasks(ts, kind1, query, today) == VisibleTasks(ts, kind2, query, today)
  {
  }
}

=== FILE: text.dfy ===
/** The string operations the form handlers and the task search rely on:
    `String.prototype.trim`, `toLowerCase` and `includes`. */
module Text {

  /** The characters `trim` strips: the ECMAScript WhiteSpace and
      LineTerminator code points. */
  predicate IsSpace(c: char) {
    || c == ' ' || c == '\t' || c == '\n' || c == '\r'
    || c == '\U{000B}' || c == '\U{000C}' || c == '\U{00A0}' || c == '\U{FEFF}'
    || c == '\U{1680}' || ('\U{2000}' <= c <= '\U{200A}')
    || c == '\U{2028}' || c == '\U{2029}' || c == '\U{202F}' || c == '\U{205F}'
    || c == '\U{3000}'
  }

  /** `!s.trim()`: nothing but whitespace (or nothing at all). */
  predicate IsBlank(s: string) {
    forall i :: 0 <= i < |s| ==> IsSpace(s[i])
  }

  /** Drops leading whitespace. */
  function TrimStart(s: string): (r: string)
    ensures |r| <= |s| && r == s[|s| - |r|..]
    ensures forall i :: 0 <= i < |s| - |r| ==> IsSpace(s[i])
    ensures r != [] ==> !IsSpace(r[0])
  {
    if |s| > 0 && IsSpace(s[0]) then TrimStart(s[1..]) else s
  }

  /** Drops trailing whitespace. */
  function TrimEnd(s: string): (r: string)
    ensures |r| <= |s| && r == s[..|r|]
    ensures forall i :: |r| <= i < |s| ==> IsSpace(s[i])
    ensures r != [] ==> !IsSpace(r[|r| - 1])
  {
    if |s| > 0 && IsSpace(s[|s| - 1]) then TrimEnd(s[..|s| - 1]) else s
  }

  /** `s.trim()`: the input with the whitespace at either end cut off
      and nothing else changed; empty exactly when the input was blank. */
  function Trim(s: string): (r: string)
    ensures |r| <= |s|
    ensures exists a, b :: 0 <= a <= b <= |s| && r == s[a..b] && IsBlank(s[..a]) && IsBlank(s[b..])
    ensures r == [] <==> IsBlank(s)
    ensures r != [] ==> !IsSpace(r[0]) && !IsSpace(r[|r| - 1])
  {
    var t := TrimStart(s);
    SliceBetweenBlanks(s, t, TrimEnd(t));
    TrimEnd(t)
  }

  /** Cutting whitespace off the front of `s` (leaving `t`) and then off the
      back of `t` (leaving `r`) keeps one contiguous slice of `s`, with only
      whitespace on either side of it. */
  lemma SliceBetweenBlanks(s: string, t: string, r: string)
    requires |t| <= |s| && t == s[|s| - |t|..]
    requires forall i :: 0 <= i < |s| - |t| ==> IsSpace(s[i])
    requires |r| <= |t| && r == t[..|r|]
    requires forall i :: |r| <= i < |t| ==> IsSpace(t[i])
    ensures exists a, b :: 0 <= a <= b <= |s| && r == s[a..b] && IsBlank(s[..a]) && IsBlank(s[b..])
  {
    var a := |s| - |t|;
    var b := a + |r|;
    assert r == s[a..b];
    assert IsBlank(s[..a]) by {
      forall i | 0 <= i < a ensures IsSpace(s[..a][i]) {
        assert s[..a][i] == s[i];
      }
    }
    assert IsBlank(s[b..]) by {
      forall i | 0 <= i < |s| - b ensures IsSpace(s[b..][i]) {
        assert s[b..][i] == t[|r| + i];
      }
    }
  }

  /** Trimming twice is trimming once. */
  lemma TrimIdempotent(s: string)
    ensures Trim(Trim(s)) == Trim(s)
  {
    var r := Trim(s);
    if r != [] {
      assert TrimStart(r) == r;
      assert TrimEnd(r) == r;
    }
  }

  /** The capital letters `toLowerCase` is modelled on: ASCII A-Z, the
      Latin-1 capitals À-Þ except the sign ×, the Cyrillic А-Я and Ё. */
  predicate IsCapital(c: char) {
    || 'A' <= c <= 'Z'
    || ('\U{00C0}' <= c <= '\U{00DE}' && c != '\U{00D7}')
    || '\U{0410}' <= c <= '\U{042F}'
    || c == '\U{0401}'
  }

  /** `toLowerCase` on the letters the application's Russian and English
      text uses: a capital becomes a letter that is no longer a capital,
      and every other character, whitespace included, is kept. */
  function LowerChar(c: char): (d: char)
    ensures d != c <==> IsCapital(c)
    ensures !IsCapital(d)
    ensures IsSpace(d) <==> IsSpace(c)
  {
    if 'A' <= c <= 'Z' then (c as int + 32) as char
    else if '\U{00C0}' <= c <= '\U{00DE}' && c != '\U{00D7}' then (c as int + 32) as char
    else if '\U{0410}' <= c <= '\U{042F}' then (c as int + 32) as char
    else if c == '\U{0401}' then '\U{0451}'
    else c
  }

  /** `s.toLowerCase()`: the same length, exactly the capitals changed, no
      capital left, and blank exactly when the input was. */
  function Lower(s: string): (r: string)
    ensures |r| == |s|
    ensures forall i :: 0 <= i < |s| ==> r[i] == LowerChar(s[i])
    ensures forall i :: 0 <= i < |s| ==> (r[i] != s[i] <==> IsCapital(s[i]))
    ensures forall i :: 0 <= i < |r| ==> !IsCapital(r[i])
    ensures IsBlank(r) <==> IsBlank(s)
  {
    seq(|s|, i requires 0 <= i < |s| => LowerChar(s[i]))
  }

  /** Lower-casing is idempotent and never turns a letter into whitespace
      or whitespace into anything else. */
  lemma LowerCharFacts(c: char)
    ensures LowerChar(LowerChar(c)) == LowerChar(c)
    ensures IsSpace(LowerChar(c)) == IsSpace(c)
  {
  }

  lemma LowerIdempotent(s: string)
    ensures Lower(Lower(s)) == Lower(s)
    ensures IsBlank(Lower(s)) == IsBlank(s)
  {
    forall i | 0 <= i < |s| ensures LowerChar(LowerChar(s[i])) == LowerChar(s[i]) {
      LowerCharFacts(s[i]);
    }
    forall i | 0 <= i < |s| ensures IsSpace(Lower(s)[i]) == IsSpace(s[i]) {
      LowerCharFacts(s[i]);
    }
  }

  /** `hay.includes(needle)`: `needle` occurs in `hay` as a contiguous run. */
  predicate Contains(hay: string, needle: string)
    decreases |hay|
  {
    needle <= hay || (|hay| > 0 && Contains(hay[1..], needle))
  }

  /** `needle` occurs in `hay` starting at offset `k`. */
  predicate OccursAt(hay: string, needle: string, k: nat) {
    k + |needle| <= |hay| && hay[k..k + |needle|] == needle
  }

  /** `Contains` holds exactly when `needle` occurs in `hay` at some offset. */
  lemma ContainsIsOccurrence(hay: string, needle: string)
    ensures Contains(hay, needle) <==> exists k: nat :: OccursAt(hay, needle, k)
  {
    if Contains(hay, needle) {
      ContainsHasOccurrence(hay, needle);
    }
    if k: nat :| OccursAt(hay, needle, k) {
      OccurrenceIsContained(hay, needle, k);
    }
  }

  lemma {:induction false} ContainsHasOccurrence(hay: string, needle: string)
    requires Contains(hay, needle)
    ensures exists k: nat :: OccursAt(hay, needle, k)
    decreases |hay|
  {
    if needle <= hay {
      assert OccursAt(hay, needle, 0);
    } else {
      ContainsHasOccurrence(hay[1..], needle);
      var k: nat :| OccursAt(hay[1..], needle, k);
      assert hay[1..][k..k + |needle|] == hay[k + 1..k + 1 + |needle|];
      assert OccursAt(hay, needle, k + 1);
    }
  }

  lemma {:induction false} OccurrenceIsContained(hay: string, needle: string, k: nat)
    requires OccursAt(hay, needle, k)
    ensures Contains(hay, needle)
    decreases k
  {
    if k == 0 {
      assert needle <= hay;
    } else {
      assert hay[1..][k - 1..k - 1 + |needle|] == hay[k..k + |needle|];
      OccurrenceIsContained(hay[1..], needle, k - 1);
    }
  }
}
